=== FILE: README.md ===
# QEMU guest-agent client: a Dafny model of its protocol engine

This project models the protocol engine of the QEMU guest-agent client in
`client/virt/guest_agent.py` (class `QemuAgent`). The client and the guest
agent exchange newline-terminated JSON records over a socket. The model
covers these parts of the client:

- **Envelope builder** (`_build_cmd`): `{"execute": name}`, plus
  `"arguments"` when arguments are given.
- **Line decoder** (`_read_objects`). It reads chunks until every non-empty
  line of the text read so far decodes, or until data or time runs out.
  Then it decodes each line on its own and drops the lines that do not
  decode.
- **Reply correlator** (`_get_response`). It polls for decoded objects and
  returns the first mapping that has a `"return"` or `"error"` key. On
  timeout it returns the empty mapping.
- **Send/await engine** (`cmd_raw`, `cmd`, `cmd_obj`).
  - `cmd_raw` takes the exclusive lock, drains stale data, sends, and then
    either returns at once or waits for the reply. It releases the lock on
    every path.
  - `cmd` builds the envelope and interprets the reply. `"return"` gives a
    value, `"error"` is meant to raise `VAgentCmdError(cmd, args, data)`,
    and anything else gives None.
  - `cmd_obj` hands back the raw reply mapping.
- **Capability cache** (`_get_supported_cmds`, `_has_command`).
  - Discovery asks `guest-info` and stores the names of the listed commands.
    When it stores nothing, the cache becomes `[None]`, which means "allow
    everything".
  - `verify_responsive` and `shutdown` send their command only when it is
    supported.
  - The constructor's rule: an agent error during discovery closes the
    socket and is re-raised unless `suppress_exceptions` is set.

As written, none of the agent exceptions can be built with arguments, so the
client raises `TypeError` wherever it means to raise one (see "## Findings").
The model states the intended exceptions and states the as-written outcome
beside them.

## How the model is built

- **Decoded values.** Values are the `Json` datatype (`JsonValues`). Python's
  `None` and JSON `null` are the same value in the client, so both are
  `JNull`. This covers the absent `args`, the `[None]` cache and the value
  `cmd` returns when nothing comes back. Numbers are integers.
- **The json library.** `json.loads` and `json.dumps` are the function values
  `Env.loads` and `Env.dumps`. Nothing is assumed about them. In particular
  no dumps/loads round trip is assumed. The empty line never decodes
  (`Decoder.Loads`), which is how `json.loads("")` failing is modelled.
- **The channel.** The socket is a `Transport.Channel`. It holds:
  - the chunks that have arrived and are waiting. A chunk is one arrival:
    the bytes that were queued together when a `_recvall` ran. Data that
    arrived together is one chunk, and one `_recvall` reads one chunk;
  - a flag for a socket that rejects sends;
  - the lock flag;
  - a trace of `Acquire`, `Release`, `Recv`, `Send` and `Close` events.
- **The guest agent.** The agent is `Env.respond`. It maps a sent record to
  the chunks that arrive after it.
- **Time.** Deadlines are counted in polls.
  - A poll with data waiting and budget left reads one chunk.
  - `READ_OBJECTS_TIMEOUT` (5) and `CMD_TIMEOUT` (20) are the poll budgets
    `Decoder.ReadObjectsTimeout` and `Engine.CmdTimeout`.
- **Errors.** Raised exceptions are `Failure` values of `Errors.AgentError`.
  - The agent family is `LockError`, `SocketError`, `ProtocolError` and
    `CmdError`. These are the exception classes the code means to raise.
  - `Errors.RaisedAsWritten` and `Errors.AsWritten` map an intended outcome
    to what is actually raised: every agent error becomes `TypeError`.
  - Two Python built-in errors can also escape the capability code:
    `AttributeError` and `TypeError`.
- **Line splitting.** `str.splitlines` is modelled as splitting on `'\n'`
  only (`Lines.SplitLines`). A final newline gives no trailing empty line,
  and the empty text has no lines. The other separators that `splitlines`
  recognises are not modelled.
- **The cache.** `_supported_cmds` is never initialised by the class, so the
  model starts it empty (`Capabilities.Init`).

### Behaviours of the source the model makes explicit

- **A timeout never raises.**
  - `_get_response` returns `{}` on timeout.
  - `cmd_raw` raises `VAgentProtocolError` only when the reply `is None`,
    which never happens. So `ProtocolError` is never produced.
  - `cmd` then falls through both of its checks and returns None. This is
    `Engine.SilenceReturnsNone`.
- **The drain reads only one batch.** The stale-data drain in `cmd_raw` is a
  single `_read_objects` call, and that call stops as soon as the text read
  so far decodes.
  - Stale replies that arrived together are one `_recvall` and are drained
    together (`Engine.QueuedStaleRepliesDrained`).
  - A stale reply, such as a late answer to a command that timed out, can
    arrive on its own after an earlier complete, decodable stale line. The
    drain stops after that earlier line, so the reply stays buffered and is
    taken as the answer to the next command (`Engine.StaleReplyAnswers`). An
    earlier arrival that does not yet decode makes the drain read on, and
    the reply is then drained with it.
- **Objects after the reply are lost.** Objects that follow the reply in the
  same batch are read and thrown away (`Correlator.AwaitReply`).
- **A None entry first allows everything.** A `"name"` entry of None placed
  first in the listing switches command checking off, just as the `[None]`
  fallback does (`Capabilities.NoneFirstAllowsAll`).

## Model

| member | source | states |
|---|---|---|
| `Errors.RaisedAsWritten` | client/virt/guest_agent.py:18-19 | Because `VAgentError.__init__` takes no arguments, every agent error the client means to raise comes out as `TypeError`. Built-in errors are raised as they are. Nothing raised as written is an agent error. |
| `Errors.AsWritten` | client/virt/guest_agent.py:18-19 | The as-written outcome has the same state and the same success value. A failure carries the error actually raised, which is never an agent error. |
| `Engine.Encode` | client/virt/guest_agent.py:314 | The framing of `cmd` here and of `cmd_obj` at :379. A record on the wire ends with a newline. When the serialised object holds no newline, splitting the record into lines gives back exactly that one line, which is what the reading side decodes. |
| `Engine.BuildCmd` | client/virt/guest_agent.py:117-121 | The envelope is a mapping that sends `"execute"` to the name. It has an `"arguments"` key exactly when the arguments are not None, mapped to them, and no other key. |
| `Engine.EnvelopeRoundTrip` | client/virt/guest_agent.py:117-121 | Reading a built envelope back gives the name and arguments it was built from. |
| `Engine.EnvelopeIsBuilt` | client/virt/guest_agent.py:117-121 | Conversely, every well-formed envelope whose arguments are absent or not None is the one built from what it reads as. |
| `Lines.SplitLines` | client/virt/guest_agent.py:140 | `str.splitlines` on `\n`, as used here and at :152: no line holds a newline, and there are no lines exactly when the text is empty. Its inverse is stated by the next two rows. |
| `Lines.SplitThenTerminate` | client/virt/guest_agent.py:140 | Re-terminating the split lines gives back the text. A newline is added only when the text ended without one. |
| `Lines.TerminateThenSplit` | client/virt/guest_agent.py:152 | Splitting newline-terminated, newline-free lines recovers exactly those lines. |
| `Transport.SendRecord` | client/virt/guest_agent.py:161-172 | A send is meant to raise `SocketError(data)` exactly when the socket rejects sends. Otherwise it records `data` as sent, receives nothing, and queues the agent's answer behind the waiting chunks. |
| `Transport.ConsumeConserves` | client/virt/guest_agent.py:137-138 | Reading chunks moves them from the buffer to the trace, in order. Nothing is lost, invented or sent. |
| `Decoder.AllDecodable` | client/virt/guest_agent.py:139-146 | The stop test of the read loop holds exactly when every line that the final decoding pass drops is empty. So stopping means no non-empty line is lost to the final pass. |
| `Decoder.DecodeLines` | client/virt/guest_agent.py:151-157 | The final pass returns at most one object per line. It returns exactly one per line exactly when every line decodes, so a shorter result means some line was dropped. |
| `Decoder.Accumulate` | client/virt/guest_agent.py:135-149 | The read loop only reads, and it reads no more chunks than its poll budget. |
| `Decoder.AccumulateReadsUntilDecodable` | client/virt/guest_agent.py:135-149 | Four things hold. The loop's text is the text it started with followed by the chunks it read. It reads at least one chunk when one is waiting and budget is left. It stops only when the text is decodable or data or budget ran out. No shorter run of chunks was already decodable. |
| `Decoder.ReadObjects` | client/virt/guest_agent.py:133-134 | With no data waiting the result is `[]` and nothing is read. In every case the call only reads. |
| `Decoder.ReadObjectsStopRule` | client/virt/guest_agent.py:135-158 | The chunks read follow the stop rule: the shortest decodable run, cut short only by the data or the budget. The objects returned are the line-by-line decoding of exactly the text of those chunks, so no text carries over between calls. |
| `Decoder.DecodedIffSomeLine` | client/virt/guest_agent.py:151-157 | A value is in the output exactly when some non-empty line decodes to it. Undecodable and empty lines are the ones dropped. |
| `Decoder.DecodeInLineOrder` | client/virt/guest_agent.py:151-158 | Decoding distributes over concatenation of lines, so the objects come out in line order. |
| `Decoder.DecodeAllLines` | client/virt/guest_agent.py:139-157 | When every line is non-empty and decodable, there is one object per line, and the object at position i is line i's. |
| `Decoder.CompleteLineDecodedFirst` | client/virt/guest_agent.py:151-157 | In the final decoding pass a complete decodable line gives its object first, whatever text follows it. |
| `Decoder.ReadOneLine` | client/virt/guest_agent.py:133-158 | A first chunk holding one complete decodable line is read alone and yields exactly that line's object. |
| `Correlator.FirstReply` | client/virt/guest_agent.py:185-188 | Whatever is picked is a mapping with a `"return"` or `"error"` key. |
| `Correlator.FirstReplyIsFirst` | client/virt/guest_agent.py:185-188 | There is a pick exactly when some object is a reply. The pick is the earliest reply: every object before it is a non-mapping or a mapping without those keys. |
| `Correlator.FirstReplyAppend` | client/virt/guest_agent.py:184-188 | The first reply of a split stream is the first part's if it has one, and otherwise the second part's. |
| `Correlator.AwaitReply` | client/virt/guest_agent.py:183-190 | The polling loop answers with the empty mapping or with a reply. |
| `Correlator.AwaitReplyOnlyReads` | client/virt/guest_agent.py:183-190 | With a reader that only reads, the polling loop only reads. |
| `Correlator.AwaitReplyIsFirstReplyOfStream` | client/virt/guest_agent.py:183-190 | The loop returns the first reply of the whole stream of objects decoded within the budget, or the empty mapping when that stream holds none. The reference is the sequence of every batch that would be read without stopping early. |
| `Correlator.EmptyIffNoReply` | client/virt/guest_agent.py:189-190 | The empty mapping comes back exactly when no reply was decoded within the budget. |
| `Correlator.GetResponse` | client/virt/guest_agent.py:175-190 | `_get_response` answers with the empty mapping or a reply, and only reads. |
| `Correlator.ResponseIsFirstReplyOfStream` | client/virt/guest_agent.py:175-190 | `_get_response` answers with the first reply among the objects the client's own decoder yields within the budget, or with `{}` exactly when there is none. |
| `Correlator.ReplyOnFirstLine` | client/virt/guest_agent.py:184-188 | A reply on the first waiting line is the response, and only that line is consumed. |
| `Engine.Drain` | client/virt/guest_agent.py:348 | The stale-data drain only reads. |
| `Engine.CmdRaw` | client/virt/guest_agent.py:330-362 | The lock and send rules of `cmd_raw` hold, with the intended exception classes (the list below the table spells them out). |
| `Engine.DrainBeforeSend` | client/virt/guest_agent.py:347-349 | Right after taking the lock, the trace holds the receipt of an oldest-first prefix of the chunks waiting before the call, followed immediately by the send. |
| `Engine.CmdObj` | client/virt/guest_agent.py:365-379 | `cmd_obj` sends `dumps(obj) + "\n"` and always expects a response. It is meant to raise only lock or socket errors, and it returns the raw mapping: empty or a reply. |
| `Engine.CmdRawAnswer` | client/virt/guest_agent.py:347-362 | With the lock free and sends working, `cmd_raw` waiting for a response answers with the first reply of the objects decoded after its send. It answers `{}` exactly when there is no such reply. |
| `Engine.CmdObjAnswer` | client/virt/guest_agent.py:365-379 | `cmd_obj` always waits for the response. Its answer is the first reply decoded after sending `dumps(obj) + "\n"`, or `{}`. |
| `Engine.CmdAnswer` | client/virt/guest_agent.py:311-326 | `cmd` waiting for a response returns the interpretation of the first reply decoded after sending its envelope, or of `{}` when there is none. |
| `Engine.Interpret` | client/virt/guest_agent.py:320-326 | `cmd` returns the `"return"` member whenever there is one, even a falsy one and even beside `"error"`. It is meant to raise `CmdError(cmd, args, error)` exactly when only `"error"` is present. Otherwise, as for the timeout `{}`, it returns None. |
| `Engine.Cmd` | client/virt/guest_agent.py:311-326 | `cmd` sends exactly the encoded envelope. A held lock is meant to raise `LockError`, and it changes nothing. The lock is released. Every intended error is a lock error, a socket error or a `CmdError` carrying this command and these arguments. Without a response expected the result is `""`, and the send is the last thing before the release. The channel afterwards is exactly the one `cmd_raw` leaves for the encoded envelope. |
| `Engine.CmdRawReturnsReply` | client/virt/guest_agent.py:343-362 | On an idle channel whose agent answers with one reply line, `cmd_raw` returns exactly that reply and consumes exactly that line. |
| `Engine.CmdReturnsReturnMember` | client/virt/guest_agent.py:320-324 | The reply `{"return": v, ...}` makes `cmd` return `v`. |
| `Engine.CmdRaisesErrorMember` | client/virt/guest_agent.py:325-326 | A reply with only `"error": d` makes the intended `cmd` raise `VAgentCmdError` with the command, its arguments and `d`. |
| `Engine.LockedRaisesTypeErrorAsWritten` | client/virt/guest_agent.py:343-345 | A held lock is meant to raise `LockError`. As written, `cmd` raises `TypeError` and leaves the channel as it was. |
| `Engine.RejectedSendRaisesTypeErrorAsWritten` | client/virt/guest_agent.py:168-172 | A rejected send is meant to raise `SocketError(data)`. As written, `cmd_raw` raises `TypeError`, and the lock is still released. |
| `Engine.ErrorReplyRaisesTypeErrorAsWritten` | client/virt/guest_agent.py:325-326 | An error-only reply is meant to raise `CmdError(cmd, args, error)`. As written, `cmd` raises `TypeError`. |
| `Engine.CmdObjKeepsErrorReply` | client/virt/guest_agent.py:365-379 | `cmd_obj` returns an error reply as it came, without raising. |
| `Engine.SilenceReturnsNone` | client/virt/guest_agent.py:355-362 | A silent agent is not an error: `cmd_raw` returns `{}` and `cmd` returns None. |
| `Engine.StaleReplyAnswers` | client/virt/guest_agent.py:347-355 | Suppose a complete, decodable, non-empty stale line arrived, and then a stale reply arrived on its own. The drain consumes only the first arrival, and the stale reply becomes the answer to the new command, whatever the agent answers to it. |
| `Engine.QueuedStaleRepliesDrained` | client/virt/guest_agent.py:347-355 | Two stale decodable lines that arrived together are drained by one read, so the answer is the agent's reply to the new command. |
| `Capabilities.NameOf` | client/virt/guest_agent.py:200-201 | An entry gives a name exactly when it is a mapping with a `"name"` key, and the name is that key's value. |
| `Capabilities.ListedNames` | client/virt/guest_agent.py:199-201 | Iterating None, a boolean or a number raises `TypeError`. A mapping or a string yields no names. A list yields at most one name per entry. |
| `Capabilities.Listing` | client/virt/guest_agent.py:197-201 | A falsy `guest-info` result stores nothing. A truthy result that is not a mapping raises `AttributeError("has_key")`. A falsy result, or a mapping without `"supported_commands"`, stores nothing and raises nothing. Names are stored only from a mapping that has that key. |
| `Capabilities.StoreListing` | client/virt/guest_agent.py:198-205 | The cache becomes the listed names when there is a listing. Otherwise the old cache is kept, and an empty one becomes `[None]`. Errors of the listing propagate, and they are only `AttributeError("has_key")` and `TypeError`. |
| `Capabilities.Settle` | client/virt/guest_agent.py:203-205 | An empty cache becomes the None-first list. A non-empty cache is kept. |
| `Capabilities.GetSupportedCmds` | client/virt/guest_agent.py:193-206 | The outcome is decided by `cmd("guest-info")` and by storing its answer. An error of either propagates, and otherwise discovery succeeds. On success the cache is what storing the answer gives, which is never empty. An error leaves the cache as it was. The lock is released. Exactly the `guest-info` envelope without arguments is sent, and the channel afterwards is exactly the one that `cmd` leaves. |
| `Capabilities.SilentAgentAllowsAll` | client/virt/guest_agent.py:197-205 | An agent that never answers `guest-info` leaves the cache `[None]`, and every command is then allowed. |
| `Capabilities.DiscoveryStoresListedNames` | client/virt/guest_agent.py:193-206 | When the agent lists `items` under `"supported_commands"`, the cache becomes their names, or `[None]` when no entry is named. |
| `Capabilities.StoreListedNames` | client/virt/guest_agent.py:198-201 | A listing under `"supported_commands"` replaces the cache by its names, settled. |
| `Capabilities.SupportedIffListed` | client/virt/guest_agent.py:223-228 | When some entry is named and all names are strings, a command is supported exactly when it is non-empty and some entry is named after it. |
| `Capabilities.NothingListedAllowsAll` | client/virt/guest_agent.py:203-205 | When no entry is named, every command is allowed, the empty name included. |
| `Capabilities.PingShutdownListing` | client/virt/guest_agent.py:223-228 | A listing of `guest-ping` and `guest-shutdown` supports `guest-ping` and not `unknown-cmd`. |
| `Capabilities.Supports` | client/virt/guest_agent.py:223-228 | A cache whose first entry is None allows every command. The empty name is allowed only then. Otherwise an allowed name is listed in the cache. `Capabilities.SupportedIffListed` gives the converse for a cache built from a listing. |
| `Capabilities.HasCommand` | client/virt/guest_agent.py:209-228 | A warm cache is left unchanged. The answer is the membership test on the settled cache. An error happens only on a cold cache and is exactly the discovery's error. |
| `Capabilities.HasCommandAsWritten` | client/virt/guest_agent.py:218-219 | As written, an empty cache raises `AttributeError` for `get_supported_cmds` and nothing else does. |
| `Capabilities.Gated` | client/virt/guest_agent.py:386-397 | With a warm cache on an idle channel, the command's envelope is sent exactly when the command is supported, and nothing happens otherwise. When the command is sent, the outcome is that of `cmd`: its error, or success. Without a response expected it returns right after the send. A warm cache is never changed. A sent command leaves the agent with exactly the channel `cmd` leaves, and the lock is always released. |
| `Capabilities.VerifyResponsive` | client/virt/guest_agent.py:382-388 | `guest-ping` is sent exactly when supported, and the outcome is then that of `cmd`. An unsupported ping changes nothing. The cache stays as it was, a sent ping leaves the channel `cmd` leaves, and the lock is released. |
| `Capabilities.Shutdown` | client/virt/guest_agent.py:391-397 | `guest-shutdown` is sent exactly when supported, and the call returns right after the send without waiting for a reply. When sent, the outcome is that of `cmd`. An unsupported shutdown changes nothing. The cache stays as it was, a sent shutdown leaves the channel `cmd` leaves, and the lock is released. |
| `Capabilities.HandleInitError` | client/virt/guest_agent.py:107-112 | An agent error closes the socket. It is re-raised when not suppressed, and swallowed when suppressed. Other errors pass through unhandled with the socket open. The cache is untouched. |
| `Capabilities.Init` | client/virt/guest_agent.py:89-112 | Without discovery, the agent is fresh with an empty cache. A raised error implies discovery was asked for, and it is not a suppressed agent error. An agent error from discovery closes the socket and is re-raised unless suppressed. Any other discovery error passes through unchanged, and a successful discovery is returned as it is, agent included. After discovery the cache is non-empty exactly when discovery succeeded. |
| `Capabilities.InitAsWritten` | client/virt/guest_agent.py:89-112 | As written, the outcome of discovery is returned unchanged: its errors are never agent errors, so the socket stays open and `suppress_exceptions` has no effect. |
| `Capabilities.SuppressIneffectiveAsWritten` | client/virt/guest_agent.py:104-112 | With the lock held and errors suppressed, the intended constructor closes the socket and succeeds. The one as written raises `TypeError` with the socket open. |

The contract of `Engine.CmdRaw` states:

- **Held lock.** When the lock is held, it is meant to raise `LockError(data)`, and it changes nothing.
- **Lock released.** Otherwise the lock is free afterwards.
- **Session shape.** The earlier trace is kept. The new part is one locked session: `Acquire`, then reads and at most one send of `data`, then `Release`.
- **Errors.** It fails exactly when the socket rejects sends. The only intended errors are lock and socket errors.
- **Result.** The result is `{}` or a reply.
- **No response expected.** Without a response expected the result is `{}`, and the send is the last event before the release.

## Left out

- **Logging, and the exception it can raise.** `_log_command`, `_log_response` (guest_agent.py:244-285), `_log_lines` and the `logging` calls are not modelled. They are not pure side effects. Under Python 2, `_log_response` applies `str()` to leaf values (:261, :273, :284), and `str()` of a unicode string holding non-ASCII characters raises `UnicodeEncodeError`. So `cmd` can raise it at :323, after a successful command, when its `"return"` value is truthy and holds such a string and logging is on (`debug`, the default, or `debug_log`). The model has no such exception path: `Engine.Cmd` returns that value.
- **The socket, the clock and the `Monitor` base class.** `_data_available`, `_recvall`, `_acquire_lock`, `_lock` and `_close_sock` are abstracted into `Transport.Channel`. Wall-clock deadlines become poll counts.
- **Other concurrency.** Nothing is claimed about other threads beyond the held/released lock flag.
- **The json library.** Its internals are the uninterpreted `Env.loads` and `Env.dumps`. The import-time check for json is left out, and so are `VAgentNotSupportedError` and `VAgentConnectError`. They come from the json check and from the connection code of the `Monitor` base class, which is not part of this model.
- **Exception messages.** The `__str__` methods are not modelled.
- **Floats.** Floating-point JSON numbers are not modelled.
- **Other line separators.** `str.splitlines` also splits on `\r`, `\r\n` and other separators; only `\n` is modelled.
- **The `debug` flag** of `cmd` is not modelled. It turns logging on (:239, :276), and with it the `UnicodeEncodeError` path described under logging above. Otherwise it has no effect on the result.
- **The guest agent's answer** depends only on the record sent (`Env.respond`), not on earlier traffic or on time.
- **Arrival timing.** Which bytes arrived together is fixed in the channel ahead of time, as its chunks. A real `_recvall` returns whatever is queued at that moment, which depends on timing that the model does not track.
- Transport.SendRecord: the contract names the intended `SocketError(data)`. As written, building VAgentSocketError fails and `TypeError` is raised; see "## Findings".
- Engine.CmdRaw: the contract names the intended `LockError` and `SocketError`. As written both are raised as `TypeError`; `Errors.AsWritten` of its outcome is stated in "## Findings".
- Engine.CmdObj: the same as `Engine.CmdRaw`, since it only calls it.
- Engine.Interpret: the contract names the intended `CmdError(cmd, args, error)`. As written `TypeError` is raised.
- Engine.Cmd: its error taxonomy is the intended one. As written every such error is `TypeError`.
- Engine.CmdRaisesErrorMember: it states the intended `CmdError`. `Engine.ErrorReplyRaisesTypeErrorAsWritten` states the as-written `TypeError` for the same input.
- Capabilities.Gated: the contract speaks of a non-empty cache. On an empty cache the discovery step is the one stated by `Capabilities.HasCommand` and `Capabilities.GetSupportedCmds`.
- Capabilities.VerifyResponsive: the same, for a non-empty cache only.
- Capabilities.Shutdown: the same, for a non-empty cache only.
- Correlator.AwaitReply: the polling loop stops after `timeout` polls that saw data, not after `timeout` seconds.

## Findings

| source | as written | input that shows it | evidently intended | confidence | as-written member | corrected member |
|---|---|---|---|---|---|---|
| client/virt/guest_agent.py:218-219 | With an empty cache, `_has_command` calls `self.get_supported_cmds()`, which the class does not define, so it raises `AttributeError` | an agent built with `get_supported_cmds=False` whose first call is `verify_responsive()` or `shutdown()` | call `self._get_supported_cmds()` and answer from the discovered cache | not executed | `Capabilities.HasCommandAsWritten` (with `Capabilities.ColdCacheCheck`) | `Capabilities.HasCommand` |
| client/virt/guest_agent.py:18-19 | `VAgentError.__init__(self)` takes no arguments, but VAgentLockError (:344), VAgentSocketError (:28, :172) and VAgentCmdError (:50, :326) are built with arguments. Each raise therefore raises `TypeError` instead | `cmd` while another thread holds the lock; a socket that rejects the send; the reply `{"error": d}` | `VAgentError.__init__(self, *args)` passing its arguments on, so the agent exceptions are raised | not executed | `Errors.AsWritten` (with `Engine.LockedRaisesTypeErrorAsWritten`, `Engine.RejectedSendRaisesTypeErrorAsWritten`, `Engine.ErrorReplyRaisesTypeErrorAsWritten`) | `Engine.CmdRaw`, `Engine.Cmd` |
| client/virt/guest_agent.py:107-112 | Because of the same constructor, no agent error reaches `except VAgentError`: discovery's errors arrive as `TypeError`, the socket is not closed and `suppress_exceptions` has no effect | `QemuAgent(vm, get_supported_cmds=True, suppress_exceptions=True)` while the lock is held | agent errors close the socket and are swallowed when suppressed | not executed | `Capabilities.InitAsWritten` (with `Capabilities.SuppressIneffectiveAsWritten`) | `Capabilities.Init` |

`Capabilities.ColdCacheCheck` states both halves on an empty cache:

- the as-written check fails with that `AttributeError`;
- the corrected check gives the same answer as the as-written one would give on the cache that discovery produces.

`verify_responsive` and `shutdown` use the corrected check.

The class never assigns `_supported_cmds` before this point. If nothing else assigns it, the test at line 218 itself raises `AttributeError` first. The model starts the cache empty, as described above, so the row is about the call at line 219.

=== FILE: capabilities.dfy ===
/** Capability discovery and the commands gated on it: `_get_supported_cmds`,
    `_has_command`, `verify_responsive`, `shutdown`, and the constructor's
    error-suppression rule. */
module Capabilities {
  import opened Wrappers
  import opened JsonValues
  import opened Seqs
  import opened Errors
  import opened Transport
  import opened Correlator
  import opened Engine

  /** The client: its channel and the supported-command cache
      (`_supported_cmds`), empty until discovery has run. A cache whose first
      element is None means discovery failed and every command is allowed. */
  datatype Agent = Agent(chan: Channel, cache: seq<Json>)

  /** The name of one entry of the `supported_commands` list: entries that
      are mappings with a `"name"` key give its value, others are skipped. */
  function NameOf(entry: Json): (name: Option<Json>)
    ensures name.Some? <==> entry.JObj? && "name" in entry.fields
    ensures name.Some? ==> name.value == entry.fields["name"]
  {
    if entry.JObj? && "name" in entry.fields then Some(entry.fields["name"]) else None
  }

  /** The names comprehension over `cmd_list`. A list is filtered; iterating
      a mapping yields its keys and iterating a string its characters, none
      of them mappings; any other value is not iterable. */
  function ListedNames(cmdList: Json): (r: Result<seq<Json>, AgentError>)
    ensures r.Failure? <==> cmdList.JNull? || cmdList.JBool? || cmdList.JNum?
    ensures r.Failure? ==> r.error == TypeError
    ensures r.Success? && !cmdList.JArr? ==> r.value == []
    ensures r.Success? ==> |r.value| <= |if cmdList.JArr? then cmdList.items else []|
  {
    match cmdList
    case JArr(items) => Success(FilterMap(NameOf, items))
    case JObj(_) => Success([])
    case JStr(_) => Success([])
    case _ => Failure(TypeError)
  }

  /** The final fallback of `_get_supported_cmds`: an empty cache becomes the
      None-only list. */
  function Settle(cache: seq<Json>): (settled: seq<Json>)
    ensures settled != []
    ensures cache != [] ==> settled == cache
    ensures cache == [] ==> settled[0] == JNull
  {
    if cache == [] then [JNull] else cache
  }

  /** The names discovery would store for a `guest-info` result, None when it
      stores nothing: a false result, or a mapping without
      `"supported_commands"`. A true result that is not a mapping has no
      `has_key`. */
  function Listing(info: Json): (r: Result<Option<seq<Json>>, AgentError>)
    ensures r.Failure? ==> r.error == AttributeError("has_key") || r.error == TypeError
    ensures r.Success? && r.value.Some? ==> info.JObj? && "supported_commands" in info.fields
    ensures Truthy(info) && !info.JObj? ==> r == Failure(AttributeError("has_key"))
    ensures !Truthy(info) || (info.JObj? && "supported_commands" !in info.fields) ==> r == Success(None)
  {
    if !Truthy(info) then Success(None)
    else if !info.JObj? then Failure(AttributeError("has_key"))
    else if "supported_commands" !in info.fields then Success(None)
    else
      var names := ListedNames(info.fields["supported_commands"]);
      if names.Failure? then Failure(names.error) else Success(Some(names.value))
  }

  /** The cache `_get_supported_cmds` leaves after `cmd` returned `info`:
      the listed names if there are any, else the cache as it was, and the
      None-only list in place of an empty cache. */
  function StoreListing(cache: seq<Json>, info: Json): (r: Result<seq<Json>, AgentError>)
    ensures r.Success? ==> r.value != []
    ensures r.Failure? ==> r.error == AttributeError("has_key") || r.error == TypeError
    ensures Listing(info).Failure? ==> r == Failure(Listing(info).error)
    ensures Listing(info) == Success(None) ==> r == Success(Settle(cache))
    ensures Listing(info).Success? && Listing(info).value.Some? ==> r == Success(Settle(Listing(info).value.value))
  {
    var listing := Listing(info);
    if listing.Failure? then Failure(listing.error)
    else Success(Settle(if listing.value.Some? then listing.value.value else cache))
  }

  /** `_get_supported_cmds`: asks `guest-info` and stores the listed names; an
      empty outcome becomes the None-only list. Errors of `cmd` propagate and
      leave the cache as it was. */
  function GetSupportedCmds(env: Env, a: Agent): (r: (Result<(), AgentError>, Agent))
    ensures r.0.Success? ==> r.1.cache != []
    ensures r.0.Failure? ==> r.1.cache == a.cache
    ensures !a.chan.locked ==> !r.1.chan.locked
    ensures r.1.chan == Cmd(env, a.chan, "guest-info", JNull, CmdTimeout, true).1
    ensures !a.chan.locked && !a.chan.sendFails ==>
      SentData(r.1.chan.trace) == SentData(a.chan.trace) + [Encode(env, BuildCmd("guest-info", JNull))]
    ensures r.0.Success? ==>
      && Cmd(env, a.chan, "guest-info", JNull, CmdTimeout, true).0.Success?
      && StoreListing(a.cache, Cmd(env, a.chan, "guest-info", JNull, CmdTimeout, true).0.value) == Success(r.1.cache)
    ensures Cmd(env, a.chan, "guest-info", JNull, CmdTimeout, true).0.Failure? ==> r.0 == Failure(Cmd(env, a.chan, "guest-info", JNull, CmdTimeout, true).0.error)
    ensures Cmd(env, a.chan, "guest-info", JNull, CmdTimeout, true).0.Success? ==>
      (r.0.Success? <==> StoreListing(a.cache, Cmd(env, a.chan, "guest-info", JNull, CmdTimeout, true).0.value).Success?)
    ensures Cmd(env, a.chan, "guest-info", JNull, CmdTimeout, true).0.Success? && StoreListing(a.cache, Cmd(env, a.chan, "guest-info", JNull, CmdTimeout, true).0.value).Failure? ==>
      r.0 == Failure(StoreListing(a.cache, Cmd(env, a.chan, "guest-info", JNull, CmdTimeout, true).0.value).error)
  {
    var info := Cmd(env, a.chan, "guest-info", JNull, CmdTimeout, true);
    var asked := a.(chan := info.1);
    if info.0.Failure? then (Failure(info.0.error), asked)
    else
      var stored := StoreListing(a.cache, info.0.value);
      if stored.Failure? then (Failure(stored.error), asked)
      else (Success(()), asked.(cache := stored.value))
  }

  /** The membership test of `_has_command` on a settled cache. */
  predicate Supports(cache: seq<Json>, name: string)
    requires cache != []
    ensures cache[0] == JNull ==> Supports(cache, name)
    ensures name == "" ==> (Supports(cache, name) <==> cache[0] == JNull)
    ensures cache[0] != JNull && Supports(cache, name) ==> exists i :: 0 <= i < |cache| && cache[i] == JStr(name)
  {
    cache[0] == JNull || (name != "" && JStr(name) in cache)
  }

  /** `_has_command` as the source intends it: discovery runs when the cache
      is empty, then the command is supported if discovery failed (None
      first) or if it is non-empty and listed. */
  function HasCommand(env: Env, a: Agent, name: string): (r: (Result<bool, AgentError>, Agent))
    ensures a.cache != [] ==> r.1 == a
    ensures r.0.Success? ==> r.1.cache != [] && r.0.value == Supports(r.1.cache, name)
    ensures r.0.Failure? ==> a.cache == [] && GetSupportedCmds(env, a) == (Failure(r.0.error), r.1)
  {
    var warm := if a.cache == [] then GetSupportedCmds(env, a) else (Success(()), a);
    if warm.0.Failure? then (Failure(warm.0.error), warm.1)
    else (Success(Supports(warm.1.cache, name)), warm.1)
  }

  /** `_has_command` as written: an empty cache makes it call
      `self.get_supported_cmds`, which the class does not define. */
  function HasCommandAsWritten(env: Env, a: Agent, name: string): (r: (Result<bool, AgentError>, Agent))
    ensures a.cache == [] <==> r.0 == Failure(AttributeError("get_supported_cmds"))
    ensures r.1 == a
  {
    if a.cache == [] then (Failure(AttributeError("get_supported_cmds")), a)
    else (Success(Supports(a.cache, name)), a)
  }

  /** A command sent only when `_has_command` allows it. With a warm cache
      on an idle channel exactly that command is sent when it is supported and
      nothing happens otherwise; without a response expected it returns right
      after the send. */
  function Gated(env: Env, a: Agent, name: string, successResp: bool): (r: (Result<(), AgentError>, Agent))
    ensures a.cache != [] && !Supports(a.cache, name) ==> r == (Success(()), a)
    ensures a.cache != [] && !a.chan.locked && !a.chan.sendFails ==>
      SentData(r.1.chan.trace) == SentData(a.chan.trace)
        + (if Supports(a.cache, name) then [Encode(env, BuildCmd(name, JNull))] else [])
    ensures a.cache != [] && Supports(a.cache, name) && !a.chan.locked && !a.chan.sendFails && !successResp ==>
      && r.0 == Success(())
      && |r.1.chan.trace| >= 2
      && r.1.chan.trace[|r.1.chan.trace| - 2] == Send(Encode(env, BuildCmd(name, JNull)))
    ensures a.cache != [] && Supports(a.cache, name) ==>
      r.0 == (if Cmd(env, a.chan, name, JNull, CmdTimeout, successResp).0.Failure?
              then Failure(Cmd(env, a.chan, name, JNull, CmdTimeout, successResp).0.error) else Success(()))
    ensures a.cache != [] && Supports(a.cache, name) ==> r.1 == a.(chan := Cmd(env, a.chan, name, JNull, CmdTimeout, successResp).1)
    ensures a.cache != [] ==> r.1.cache == a.cache
    ensures !a.chan.locked ==> !r.1.chan.locked
  {
    var gate := HasCommand(env, a, name);
    if gate.0.Failure? then (Failure(gate.0.error), gate.1)
    else if !gate.0.value then (Success(()), gate.1)
    else
      var sent := Cmd(env, gate.1.chan, name, JNull, CmdTimeout, successResp);
      (if sent.0.Failure? then Failure(sent.0.error) else Success(()), gate.1.(chan := sent.1))
  }

  /** `verify_responsive`: pings the agent when `guest-ping` is supported. */
  function VerifyResponsive(env: Env, a: Agent): (r: (Result<(), AgentError>, Agent))
    ensures a.cache != [] && !Supports(a.cache, "guest-ping") ==> r == (Success(()), a)
    ensures a.cache != [] && !a.chan.locked && !a.chan.sendFails ==>
      SentData(r.1.chan.trace) == SentData(a.chan.trace)
        + (if Supports(a.cache, "guest-ping") then [Encode(env, BuildCmd("guest-ping", JNull))] else [])
    ensures a.cache != [] && Supports(a.cache, "guest-ping") ==>
      r.0 == (if Cmd(env, a.chan, "guest-ping", JNull, CmdTimeout, true).0.Failure?
              then Failure(Cmd(env, a.chan, "guest-ping", JNull, CmdTimeout, true).0.error) else Success(()))
    ensures a.cache != [] && Supports(a.cache, "guest-ping") ==> r.1 == a.(chan := Cmd(env, a.chan, "guest-ping", JNull, CmdTimeout, true).1)
    ensures a.cache != [] ==> r.1.cache == a.cache
    ensures !a.chan.locked ==> !r.1.chan.locked
  {
    Gated(env, a, "guest-ping", true)
  }

  /** `shutdown`: sends `guest-shutdown` when supported and returns without
      waiting for a reply. */
  function Shutdown(env: Env, a: Agent): (r: (Result<(), AgentError>, Agent))
    ensures a.cache != [] && !Supports(a.cache, "guest-shutdown") ==> r == (Success(()), a)
    ensures a.cache != [] && !a.chan.locked && !a.chan.sendFails ==>
      SentData(r.1.chan.trace) == SentData(a.chan.trace)
        + (if Supports(a.cache, "guest-shutdown") then [Encode(env, BuildCmd("guest-shutdown", JNull))] else [])
    ensures a.cache != [] && Supports(a.cache, "guest-shutdown") && !a.chan.locked && !a.chan.sendFails ==>
      && r.0 == Success(())
      && |r.1.chan.trace| >= 2
      && r.1.chan.trace[|r.1.chan.trace| - 2] == Send(Encode(env, BuildCmd("guest-shutdown", JNull)))
    ensures a.cache != [] && Supports(a.cache, "guest-shutdown") ==>
      r.0 == (if Cmd(env, a.chan, "guest-shutdown", JNull, CmdTimeout, false).0.Failure?
              then Failure(Cmd(env, a.chan, "guest-shutdown", JNull, CmdTimeout, false).0.error) else Success(()))
    ensures a.cache != [] && Supports(a.cache, "guest-shutdown") ==> r.1 == a.(chan := Cmd(env, a.chan, "guest-shutdown", JNull, CmdTimeout, false).1)
    ensures a.cache != [] ==> r.1.cache == a.cache
    ensures !a.chan.locked ==> !r.1.chan.locked
  {
    Gated(env, a, "guest-shutdown", false)
  }

  /** The constructor's handler around discovery's outcome `d`: an agent
      error closes the socket and is re-raised unless suppressed; other
      errors pass through it with the socket open. */
  function HandleInitError(d: (Result<(), AgentError>, Agent), suppress: bool): (r: (Result<(), AgentError>, Agent))
    ensures r.0.Failure? && suppress ==> !IsAgentError(r.0.error)
    ensures r.0.Failure? ==> r.0 == d.0
    ensures d.0.Success? || !IsAgentError(d.0.error) ==> r == d
    ensures r.1.cache == d.1.cache
    ensures r.1.chan.trace == d.1.chan.trace + (if d.0.Failure? && IsAgentError(d.0.error) then [Close] else [])
    ensures d.0.Failure? && IsAgentError(d.0.error) ==> r.0 == (if suppress then Success(()) else d.0)
  {
    if d.0.Failure? && IsAgentError(d.0.error) then
      var closed := d.1.(chan := CloseSock(d.1.chan));
      if suppress then (Success(()), closed) else (Failure(d.0.error), closed)
    else d
  }

  /** The constructor after connecting: a fresh agent with an empty cache,
      and discovery when asked for, under the handler. A suppressed failure
      leaves the cache empty, so the first `_has_command` asks again. */
  function Init(env: Env, ch: Channel, getSupportedCmds: bool, suppress: bool): (r: (Result<(), AgentError>, Agent))
    ensures r.0.Failure? ==> getSupportedCmds && (!suppress || !IsAgentError(r.0.error))
    ensures !getSupportedCmds ==> r == (Success(()), Agent(ch, []))
    ensures getSupportedCmds ==> (r.1.cache != [] <==> GetSupportedCmds(env, Agent(ch, [])).0.Success?)
    ensures getSupportedCmds && GetSupportedCmds(env, Agent(ch, [])).0.Failure?
            && IsAgentError(GetSupportedCmds(env, Agent(ch, [])).0.error) ==>
      && r.0 == (if suppress then Success(()) else GetSupportedCmds(env, Agent(ch, [])).0)
      && r.1.chan.trace == GetSupportedCmds(env, Agent(ch, [])).1.chan.trace + [Close]
    ensures getSupportedCmds && GetSupportedCmds(env, Agent(ch, [])).0.Failure?
            && !IsAgentError(GetSupportedCmds(env, Agent(ch, [])).0.error) ==>
      r == GetSupportedCmds(env, Agent(ch, []))
    ensures getSupportedCmds && GetSupportedCmds(env, Agent(ch, [])).0.Success? ==> r == GetSupportedCmds(env, Agent(ch, []))
  {
    var a := Agent(ch, []);
    if !getSupportedCmds then (Success(()), a)
    else HandleInitError(GetSupportedCmds(env, a), suppress)
  }

  /** The constructor as written: discovery's agent errors are raised as
      `TypeError` (see `RaisedAsWritten`), so the handler never catches them.
      The socket is not closed and `suppress_exceptions` has no effect. */
  function InitAsWritten(env: Env, ch: Channel, getSupportedCmds: bool, suppress: bool): (r: (Result<(), AgentError>, Agent))
    ensures !getSupportedCmds ==> r == (Success(()), Agent(ch, []))
    ensures getSupportedCmds ==> r == AsWritten(GetSupportedCmds(env, Agent(ch, [])))
    ensures r.0.Failure? ==> !IsAgentError(r.0.error)
  {
    var a := Agent(ch, []);
    if !getSupportedCmds then (Success(()), a)
    else HandleInitError(AsWritten(GetSupportedCmds(env, a)), suppress)
  }

  /** On a channel whose lock is held, asking for discovery with errors
      suppressed: the intended constructor closes the socket and succeeds,
      while the one as written raises `TypeError` with the socket open. */
  lemma SuppressIneffectiveAsWritten(env: Env, ch: Channel)
    requires ch.locked
    ensures Init(env, ch, true, true).0 == Success(())
    ensures Init(env, ch, true, true).1.chan.trace == ch.trace + [Close]
    ensures InitAsWritten(env, ch, true, true) == (Failure(TypeError), Agent(ch, []))
  {
    assert GetSupportedCmds(env, Agent(ch, [])).0.Failure?;
  }

  /** When every listed name is a string and at least one entry is named, the
      stored cache supports exactly the non-empty listed names. */
  lemma SupportedIffListed(items: seq<Json>, name: string)
    requires forall i :: 0 <= i < |items| && NameOf(items[i]).Some? ==> NameOf(items[i]).value.JStr?
    requires exists i :: 0 <= i < |items| && NameOf(items[i]).Some?
    ensures Supports(Settle(FilterMap(NameOf, items)), name)
        <==> name != "" && exists i :: 0 <= i < |items| && NameOf(items[i]) == Some(JStr(name))
  {
    var names := FilterMap(NameOf, items);
    var i :| 0 <= i < |items| && NameOf(items[i]).Some?;
    FilterMapMember(NameOf, items, NameOf(items[i]).value);
    assert names != [];
    FilterMapMember(NameOf, items, names[0]);
    assert names[0] != JNull;
    FilterMapMember(NameOf, items, JStr(name));
  }

  /** When no entry is named, discovery has failed and every command is
      allowed, the empty name included. */
  lemma NothingListedAllowsAll(items: seq<Json>, name: string)
    requires forall i :: 0 <= i < |items| ==> NameOf(items[i]).None?
    ensures Supports(Settle(FilterMap(NameOf, items)), name)
  {
    var names := FilterMap(NameOf, items);
    if names != [] {
      FilterMapMember(NameOf, items, names[0]);
    }
  }

  /** An entry named None placed first switches command checking off for every
      command, whatever else is listed. */
  lemma NoneFirstAllowsAll(items: seq<Json>, name: string)
    requires |items| > 0 && NameOf(items[0]) == Some(JNull)
    ensures Supports(Settle(FilterMap(NameOf, items)), name)
  {
  }

  /** Scenario: an idle agent with an empty cache that answers `guest-info`
      with `{"return": {"supported_commands": items}}` ends up with the names
      of `items` as its cache. */
  lemma DiscoveryStoresListedNames(env: Env, ch: Channel, line: string, m: map<string, Json>, info: map<string, Json>, items: seq<Json>)
    requires !ch.locked && !ch.sendFails && ch.buffered == []
    requires AnswersWith(env, Encode(env, BuildCmd("guest-info", JNull)), line)
    requires env.loads(line) == Some(JObj(m)) && "return" in m && m["return"] == JObj(info)
    requires "supported_commands" in info && info["supported_commands"] == JArr(items)
    ensures GetSupportedCmds(env, Agent(ch, [])).0 == Success(())
    ensures GetSupportedCmds(env, Agent(ch, [])).1.cache == Settle(FilterMap(NameOf, items))
  {
    CmdReturnsReturnMember(env, ch, "guest-info", JNull, CmdTimeout, line, m);
    StoreListedNames([], info, items);
  }

  /** Scenario: an agent that never answers `guest-info` makes discovery on an
      empty cache succeed with the None-only list, so every command is then
      allowed. */
  lemma SilentAgentAllowsAll(env: Env, ch: Channel, name: string)
    requires !ch.locked && !ch.sendFails && ch.buffered == []
    requires env.respond(Encode(env, BuildCmd("guest-info", JNull))) == []
    ensures GetSupportedCmds(env, Agent(ch, [])).0 == Success(())
    ensures GetSupportedCmds(env, Agent(ch, [])).1.cache == [JNull]
    ensures Supports(GetSupportedCmds(env, Agent(ch, [])).1.cache, name)
  {
    SilenceReturnsNone(env, ch, "guest-info", JNull, CmdTimeout);
    assert StoreListing([], JNull) == Success([JNull]);
  }

  /** A listing under `"supported_commands"` replaces the cache by its names. */
  lemma StoreListedNames(cache: seq<Json>, info: map<string, Json>, items: seq<Json>)
    requires "supported_commands" in info && info["supported_commands"] == JArr(items)
    ensures StoreListing(cache, JObj(info)) == Success(Settle(FilterMap(NameOf, items)))
  {
    assert info != map[];
  }

  /** Scenario: a cache listing `guest-ping` and `guest-shutdown` supports
      `guest-ping` and not `unknown-cmd`. */
  lemma PingShutdownListing(items: seq<Json>)
    requires items == [JObj(map["name" := JStr("guest-ping")]), JObj(map["name" := JStr("guest-shutdown")])]
    ensures Supports(Settle(FilterMap(NameOf, items)), "guest-ping")
    ensures !Supports(Settle(FilterMap(NameOf, items)), "unknown-cmd")
  {
    assert NameOf(items[0]) == Some(JStr("guest-ping"));
    assert NameOf(items[1]) == Some(JStr("guest-shutdown"));
    assert items[1..][1..] == [];
    assert FilterMap(NameOf, items) == [JStr("guest-ping"), JStr("guest-shutdown")];
  }

  /** On an empty cache the source's `_has_command` fails where the intended
      one runs discovery and answers from the discovered cache. */
  lemma ColdCacheCheck(env: Env, a: Agent, name: string)
    requires a.cache == []
    ensures HasCommandAsWritten(env, a, name).0 == Failure(AttributeError("get_supported_cmds"))
    ensures GetSupportedCmds(env, a).0.Success? ==>
      HasCommand(env, a, name) == (HasCommandAsWritten(env, GetSupportedCmds(env, a).1, name).0, GetSupportedCmds(env, a).1)
  {
  }
}

=== FILE: correlator.dfy ===
/** The reply correlator (`_get_response`): polls for decoded objects until
    one of them is a reply, dropping everything else it sees. */
module Correlator {
  import opened Wrappers
  import opened JsonValues
  import opened Seqs
  import opened Transport
  import opened Decoder

  /** A reply is a mapping with a "return" or an "error" key. */
  predicate IsReply(o: Json) {
    o.JObj? && ("return" in o.fields || "error" in o.fields)
  }

  /** The first reply among `objs`, as a mapping; non-mappings and other
      mappings before it are skipped. FirstReplyIsFirst states which one. */
  function FirstReply(objs: seq<Json>): (r: Option<map<string, Json>>)
    ensures r.Some? ==> IsReply(JObj(r.value))
  {
    if objs == [] then None
    else if IsReply(objs[0]) then Some(objs[0].fields)
    else FirstReply(objs[1..])
  }

  /** There is a reply exactly when some object is one, and the one returned
      is the earliest. */
  lemma {:induction false} FirstReplyIsFirst(objs: seq<Json>)
    ensures FirstReply(objs).Some? <==> exists i :: 0 <= i < |objs| && IsReply(objs[i])
    ensures FirstReply(objs).Some? ==>
      exists i :: 0 <= i < |objs| && objs[i] == JObj(FirstReply(objs).value) && IsReply(objs[i])
                  && forall j :: 0 <= j < i ==> !IsReply(objs[j])
  {
    if objs != [] && !IsReply(objs[0]) {
      FirstReplyIsFirst(objs[1..]);
      FirstReplyShift(objs, FirstReply(objs[1..]));
    } else if objs != [] {
      assert objs[0] == JObj(FirstReply(objs).value);
    }
  }

  lemma FirstReplyShift(objs: seq<Json>, r: Option<map<string, Json>>)
    requires objs != [] && !IsReply(objs[0])
    requires r.Some? <==> exists i :: 0 <= i < |objs[1..]| && IsReply(objs[1..][i])
    requires r.Some? ==>
      exists i :: 0 <= i < |objs[1..]| && objs[1..][i] == JObj(r.value) && IsReply(objs[1..][i])
                  && forall j :: 0 <= j < i ==> !IsReply(objs[1..][j])
    ensures r.Some? <==> exists i :: 0 <= i < |objs| && IsReply(objs[i])
    ensures r.Some? ==>
      exists i :: 0 <= i < |objs| && objs[i] == JObj(r.value) && IsReply(objs[i])
                  && forall j :: 0 <= j < i ==> !IsReply(objs[j])
  {
    if r.Some? {
      var i :| 0 <= i < |objs[1..]| && objs[1..][i] == JObj(r.value) && IsReply(objs[1..][i])
               && forall j :: 0 <= j < i ==> !IsReply(objs[1..][j]);
      assert objs[i + 1] == JObj(r.value);
      forall j | 0 <= j < i + 1 ensures !IsReply(objs[j]) {
        if j > 0 { assert objs[j] == objs[1..][j - 1]; }
      }
    } else {
      forall i | 0 <= i < |objs| ensures !IsReply(objs[i]) {
        if i > 0 { assert objs[i] == objs[1..][i - 1]; }
      }
    }
  }

  /** The first reply of a stream split in two is the first part's, if it has
      one, and otherwise the second part's. */
  lemma {:induction false} FirstReplyAppend(a: seq<Json>, b: seq<Json>)
    ensures FirstReply(a + b) == if FirstReply(a).Some? then FirstReply(a) else FirstReply(b)
  {
    if a == [] {
      assert a + b == b;
    } else {
      assert (a + b)[0] == a[0];
      assert (a + b)[1..] == a[1..] + b;
      FirstReplyAppend(a[1..], b);
    }
  }

  /** One call of `_read_objects`: a batch of decoded objects and the channel
      after reading them. The polling loop is stated for any reader; the
      client's reader is ObjectReader. */
  type Reader = Channel -> (seq<Json>, Channel)

  /** A reader that only reads from the channel. */
  ghost predicate OnlyReads(read: Reader) {
    forall c :: ReadsOnly(c, read(c).1)
  }

  /** The client's reader: `_read_objects` with its default budget. */
  function ObjectReader(loads: string -> Option<Json>): (read: Reader)
    ensures OnlyReads(read)
  {
    c => ReadObjects(loads, c, ReadObjectsTimeout)
  }

  /** The polling loop of `_get_response`: while data arrives within the
      budget, read a batch and return its first reply; objects after the reply
      in the same batch are lost. When the budget or the data runs out the
      result is the empty mapping, which is not a reply. */
  function AwaitReply(read: Reader, ch: Channel, timeout: nat): (r: (map<string, Json>, Channel))
    ensures r.0 == map[] || IsReply(JObj(r.0))
    decreases timeout
  {
    if ch.buffered == [] || timeout == 0 then (map[], ch)
    else
      var batch := read(ch);
      var first := FirstReply(batch.0);
      if first.Some? then
        assert IsReply(JObj(first.value));
        (first.value, batch.1)
      else AwaitReply(read, batch.1, timeout - 1)
  }

  /** With a reader that only reads, the polling loop only reads. */
  lemma {:induction false} AwaitReplyOnlyReads(read: Reader, ch: Channel, timeout: nat)
    requires OnlyReads(read)
    ensures ReadsOnly(ch, AwaitReply(read, ch, timeout).1)
    decreases timeout
  {
    if ch.buffered == [] || timeout == 0 {
      ReadsNothing(ch);
    } else {
      var batch := read(ch);
      if FirstReply(batch.0).None? {
        AwaitReplyOnlyReads(read, batch.1, timeout - 1);
        ReadsOnlyTransitive(ch, batch.1, AwaitReply(read, batch.1, timeout - 1).1);
      }
    }
  }

  /** `_get_response`: the reply read within `timeout` polls, or the empty
      mapping; only reads happen. */
  function GetResponse(loads: string -> Option<Json>, ch: Channel, timeout: nat): (r: (map<string, Json>, Channel))
    ensures r.0 == map[] || IsReply(JObj(r.0))
    ensures ReadsOnly(ch, r.1)
  {
    AwaitReplyOnlyReads(ObjectReader(loads), ch, timeout);
    AwaitReply(ObjectReader(loads), ch, timeout)
  }

  /** Reference reading: the batches the polling loop would read if it never
      stopped early, until the budget or the data runs out. */
  function Batches(read: Reader, ch: Channel, timeout: nat): seq<seq<Json>>
    decreases timeout
  {
    if ch.buffered == [] || timeout == 0 then []
    else
      var batch := read(ch);
      [batch.0] + Batches(read, batch.1, timeout - 1)
  }

  /** The polling loop returns the first reply of the whole decoded stream
      within the budget, and the empty mapping when that stream holds no
      reply. */
  lemma {:induction false} AwaitReplyIsFirstReplyOfStream(read: Reader, ch: Channel, timeout: nat)
    ensures AwaitReply(read, ch, timeout).0 == FirstReply(Flatten(Batches(read, ch, timeout))).GetOr(map[])
    decreases timeout
  {
    if ch.buffered != [] && timeout != 0 {
      var batch := read(ch);
      var first := FirstReply(batch.0);
      var later := Flatten(Batches(read, batch.1, timeout - 1));
      AwaitReplyStep(read, ch, timeout);
      FirstReplyAppend(batch.0, later);
      AwaitReplyIsFirstReplyOfStream(read, batch.1, timeout - 1);
      EarlierWins(AwaitReply(read, ch, timeout).0, AwaitReply(read, batch.1, timeout - 1).0,
                  first, FirstReply(later), FirstReply(batch.0 + later));
    }
  }

  /** The answer of one round combined with the answer of the rounds after
      it. */
  lemma EarlierWins(now: map<string, Json>, after: map<string, Json>, first: Option<map<string, Json>>,
                    later: Option<map<string, Json>>, both: Option<map<string, Json>>)
    requires now == if first.Some? then first.value else after
    requires after == later.GetOr(map[])
    requires both == if first.Some? then first else later
    ensures now == both.GetOr(map[])
  {
  }

  /** One round of the polling loop and of the reference reading. */
  lemma AwaitReplyStep(read: Reader, ch: Channel, timeout: nat)
    requires ch.buffered != [] && timeout != 0
    ensures AwaitReply(read, ch, timeout).0
      == if FirstReply(read(ch).0).Some? then FirstReply(read(ch).0).value
         else AwaitReply(read, read(ch).1, timeout - 1).0
    ensures Flatten(Batches(read, ch, timeout)) == read(ch).0 + Flatten(Batches(read, read(ch).1, timeout - 1))
  {
    FlattenCons(read(ch).0, Batches(read, read(ch).1, timeout - 1));
  }

  /** The empty mapping comes back exactly when no reply was decoded within
      the budget: a reply always has a key, so it is never confused with the
      timeout result. */
  lemma EmptyIffNoReply(read: Reader, ch: Channel, timeout: nat)
    ensures AwaitReply(read, ch, timeout).0 == map[] <==> FirstReply(Flatten(Batches(read, ch, timeout))).None?
  {
    AwaitReplyIsFirstReplyOfStream(read, ch, timeout);
    var f := FirstReply(Flatten(Batches(read, ch, timeout)));
    if f.Some? {
      assert IsReply(JObj(f.value));
      assert f.value != map[];
    }
  }

  /** `_get_response` answers with the first reply among the objects decoded
      within the budget, or with the empty mapping exactly when none of them
      is a reply. */
  lemma ResponseIsFirstReplyOfStream(loads: string -> Option<Json>, ch: Channel, timeout: nat)
    ensures GetResponse(loads, ch, timeout).0 == FirstReply(Flatten(Batches(ObjectReader(loads), ch, timeout))).GetOr(map[])
    ensures GetResponse(loads, ch, timeout).0 == map[] <==> FirstReply(Flatten(Batches(ObjectReader(loads), ch, timeout))).None?
  {
    AwaitReplyIsFirstReplyOfStream(ObjectReader(loads), ch, timeout);
    EmptyIffNoReply(ObjectReader(loads), ch, timeout);
  }

  /** A reply on the first buffered line is the response. */
  lemma ReplyOnFirstLine(loads: string -> Option<Json>, ch: Channel, timeout: nat, line: string, m: map<string, Json>)
    requires |ch.buffered| > 0 && ch.buffered[0] == line + "\n"
    requires timeout > 0
    requires line != "" && '\n' !in line
    requires loads(line) == Some(JObj(m)) && IsReply(JObj(m))
    ensures GetResponse(loads, ch, timeout) == (m, Consume(ch, 1))
  {
    ReadOneLine(loads, ch, ReadObjectsTimeout, line, JObj(m));
    assert ObjectReader(loads)(ch) == ([JObj(m)], Consume(ch, 1));
    assert FirstReply([JObj(m)]) == Some(m);
  }

  /** With nothing buffered there is no response: the empty mapping. */
  lemma SilenceIsEmpty(loads: string -> Option<Json>, ch: Channel, timeout: nat)
    requires ch.buffered == []
    ensures GetResponse(loads, ch, timeout) == (map[], ch)
  {
  }
}

=== FILE: decoder.dfy ===
/** The line-oriented decoder (`_read_objects`): reads chunks until every
    non-empty line of the text read so far decodes, or until no more data
    arrives within the budget, then decodes each line on its own and drops
    the lines that do not decode. */
module Decoder {
  import opened Wrappers
  import opened JsonValues
  import opened Seqs
  import opened Lines
  import opened Transport

  /** READ_OBJECTS_TIMEOUT, in polls. */
  const ReadObjectsTimeout: nat := 5

  /** `json.loads` on one line. The json library rejects the empty line, which
      is how empty lines are dropped in the final pass. */
  function Loads(loads: string -> Option<Json>, line: string): Option<Json>
  {
    if line == "" then None else loads(line)
  }

  function LineDecoder(loads: string -> Option<Json>): string -> Option<Json>
  {
    line => Loads(loads, line)
  }

  /** The final pass: the decoded lines, in order, undecodable ones dropped. */
  function DecodeLines(loads: string -> Option<Json>, lines: seq<string>): (objs: seq<Json>)
    ensures |objs| <= |lines|
    ensures |objs| == |lines| <==> forall i :: 0 <= i < |lines| ==> Loads(loads, lines[i]).Some?
  {
    FilterMapKeepsAll(LineDecoder(loads), lines);
    FilterMap(LineDecoder(loads), lines)
  }

  /** The stop test of the read loop: every non-empty line decodes. Read per
      line, it holds exactly when the only lines the final pass drops are the
      empty ones. */
  predicate AllDecodable(loads: string -> Option<Json>, s: string)
    ensures AllDecodable(loads, s) ==>
      forall i :: 0 <= i < |SplitLines(s)| && Loads(loads, SplitLines(s)[i]).None? ==> SplitLines(s)[i] == ""
    ensures (forall i :: 0 <= i < |SplitLines(s)| && Loads(loads, SplitLines(s)[i]).None? ==> SplitLines(s)[i] == "") ==> AllDecodable(loads, s)
  {
    forall line | line in SplitLines(s) :: line == "" || loads(line).Some?
  }

  lemma FlattenPrefixStep(b: seq<string>, j: nat)
    requires 0 < j <= |b|
    ensures Flatten(b[..j]) == b[0] + Flatten(b[1..][..j - 1])
  {
    assert b[..j][1..] == b[1..][..j - 1];
  }

  /** The read loop's promise about its text, for `buf` the text read so
      far, `polls` the budget left and `r` the final text and channel. With
      `n` the number of chunks read: the text is `buf` followed by those
      chunks, at least one chunk is read when one is there and budget is left,
      the loop stops only when the text is decodable or data or budget ran
      out, and it never reads past the first decodable text. How much it reads
      and that it only reads is Accumulate's own contract. */
  ghost predicate ReadsUntilDecodable(loads: string -> Option<Json>, buf: string, ch: Channel, polls: nat, r: (string, Channel))
  {
    && |r.1.buffered| <= |ch.buffered|
    && r.0 == buf + Flatten(ch.buffered[..|ch.buffered| - |r.1.buffered|])
    && (ch.buffered != [] && polls > 0 ==> |r.1.buffered| < |ch.buffered|)
    && (r.1.buffered == [] || |ch.buffered| - |r.1.buffered| == polls || AllDecodable(loads, r.0))
    && forall j :: 0 < j < |ch.buffered| - |r.1.buffered| ==> !AllDecodable(loads, buf + Flatten(ch.buffered[..j]))
  }

  /** One more undecodable chunk in front keeps the promise. */
  lemma ReadsUntilDecodableStep(loads: string -> Option<Json>, buf: string, ch: Channel, polls: nat, r: (string, Channel))
    requires ch.buffered != [] && polls > 0
    requires !AllDecodable(loads, buf + ch.buffered[0])
    requires ReadsUntilDecodable(loads, buf + ch.buffered[0], Consume(ch, 1), polls - 1, r)
    ensures ReadsUntilDecodable(loads, buf, ch, polls, r)
  {
    var b := ch.buffered;
    var buf' := buf + b[0];
    assert Consume(ch, 1).buffered == b[1..];
    var m := |b[1..]| - |r.1.buffered|;
    PrefixTextStep(buf, b, m + 1);
    forall j | 0 < j < m + 1
      ensures !AllDecodable(loads, buf + Flatten(b[..j]))
    {
      PrefixTextStep(buf, b, j);
      if j == 1 {
        assert b[1..][..0] == [];
        assert buf' + Flatten(b[1..][..0]) == buf';
      }
    }
  }

  lemma PrefixTextStep(buf: string, b: seq<string>, j: nat)
    requires 0 < j <= |b|
    ensures buf + Flatten(b[..j]) == (buf + b[0]) + Flatten(b[1..][..j - 1])
  {
    FlattenPrefixStep(b, j);
  }

  /** The read loop of `_read_objects`: it only reads, and no more chunks
      than its budget. */
  function Accumulate(loads: string -> Option<Json>, buf: string, ch: Channel, polls: nat): (r: (string, Channel))
    ensures ReadsOnly(ch, r.1)
    ensures |ch.buffered| - |r.1.buffered| <= polls
    decreases polls
  {
    if ch.buffered == [] || polls == 0 then
      ReadsNothing(ch);
      (buf, ch)
    else
      var buf' := buf + ch.buffered[0];
      if AllDecodable(loads, buf') then (buf', Consume(ch, 1))
      else
        var r := Accumulate(loads, buf', Consume(ch, 1), polls - 1);
        ReadsOnlyTransitive(ch, Consume(ch, 1), r.1);
        r
  }

  /** The read loop keeps its promise. */
  lemma {:induction false} AccumulateReadsUntilDecodable(loads: string -> Option<Json>, buf: string, ch: Channel, polls: nat)
    ensures ReadsUntilDecodable(loads, buf, ch, polls, Accumulate(loads, buf, ch, polls))
    decreases polls
  {
    if ch.buffered == [] || polls == 0 || AllDecodable(loads, buf + ch.buffered[0]) {
      AccumulateStops(loads, buf, ch, polls);
    } else {
      AccumulateReadsUntilDecodable(loads, buf + ch.buffered[0], Consume(ch, 1), polls - 1);
      AccumulateContinues(loads, buf, ch, polls);
    }
  }

  /** The rounds where the read loop stops keep the promise. */
  lemma AccumulateStops(loads: string -> Option<Json>, buf: string, ch: Channel, polls: nat)
    requires ch.buffered == [] || polls == 0 || AllDecodable(loads, buf + ch.buffered[0])
    ensures ReadsUntilDecodable(loads, buf, ch, polls, Accumulate(loads, buf, ch, polls))
  {
    if ch.buffered == [] || polls == 0 {
      assert Accumulate(loads, buf, ch, polls) == (buf, ch);
      ReadsUntilDecodableStop(loads, buf, ch, polls);
    } else {
      assert Accumulate(loads, buf, ch, polls) == (buf + ch.buffered[0], Consume(ch, 1));
      ReadsUntilDecodableFirst(loads, buf, ch, polls);
    }
  }

  /** A round where the read loop goes on keeps the promise of the rounds
      after it. */
  lemma AccumulateContinues(loads: string -> Option<Json>, buf: string, ch: Channel, polls: nat)
    requires ch.buffered != [] && polls > 0 && !AllDecodable(loads, buf + ch.buffered[0])
    requires ReadsUntilDecodable(loads, buf + ch.buffered[0], Consume(ch, 1), polls - 1,
                                 Accumulate(loads, buf + ch.buffered[0], Consume(ch, 1), polls - 1))
    ensures ReadsUntilDecodable(loads, buf, ch, polls, Accumulate(loads, buf, ch, polls))
  {
    var next := Accumulate(loads, buf + ch.buffered[0], Consume(ch, 1), polls - 1);
    assert Accumulate(loads, buf, ch, polls) == next;
    ReadsUntilDecodableStep(loads, buf, ch, polls, next);
  }

  /** Without data or budget nothing is read. */
  lemma ReadsUntilDecodableStop(loads: string -> Option<Json>, buf: string, ch: Channel, polls: nat)
    requires ch.buffered == [] || polls == 0
    ensures ReadsUntilDecodable(loads, buf, ch, polls, (buf, ch))
  {
    assert ch.buffered[..0] == [];
  }

  /** A first chunk that makes the text decodable is the only one read. */
  lemma ReadsUntilDecodableFirst(loads: string -> Option<Json>, buf: string, ch: Channel, polls: nat)
    requires ch.buffered != [] && polls > 0
    requires AllDecodable(loads, buf + ch.buffered[0])
    ensures ReadsUntilDecodable(loads, buf, ch, polls, (buf + ch.buffered[0], Consume(ch, 1)))
  {
    FlattenPrefixStep(ch.buffered, 1);
    assert ch.buffered[1..][..0] == [];
  }

  /** The stop rule of `_read_objects` over the waiting `chunks`, when it
      reads `n` of them with a budget of `timeout` polls: at least one chunk
      when one is there and budget is left, no more than the budget, and the
      shortest run whose text is decodable unless the data or the budget ran
      out first. */
  ghost predicate StopsAtFirstDecodable(loads: string -> Option<Json>, chunks: seq<string>, timeout: nat, n: nat)
  {
    && n <= |chunks|
    && n <= timeout
    && (chunks != [] && timeout > 0 ==> n > 0)
    && (n == |chunks| || n == timeout || AllDecodable(loads, Flatten(chunks[..n])))
    && forall j :: 0 < j < n ==> !AllDecodable(loads, Flatten(chunks[..j]))
  }

  /** `_read_objects`: nothing is read when no data is waiting; otherwise it
      only reads. What it reads and returns is stated by ReadObjectsStopRule. */
  function ReadObjects(loads: string -> Option<Json>, ch: Channel, timeout: nat): (r: (seq<Json>, Channel))
    ensures ch.buffered == [] ==> r == ([], ch)
    ensures ReadsOnly(ch, r.1)
  {
    if ch.buffered == [] then
      ReadsNothing(ch);
      ([], ch)
    else
      var read := Accumulate(loads, "", ch, timeout);
      (DecodeLines(loads, SplitLines(read.0)), read.1)
  }

  /** The chunks `_read_objects` reads follow the stop rule, and its result is
      the decoding, line by line, of exactly the text of those chunks. The
      text read is local to the call. */
  lemma ReadObjectsStopRule(loads: string -> Option<Json>, ch: Channel, timeout: nat, r: (seq<Json>, Channel))
    requires r == ReadObjects(loads, ch, timeout)
    ensures StopsAtFirstDecodable(loads, ch.buffered, timeout, |ch.buffered| - |r.1.buffered|)
    ensures r.0 == DecodeLines(loads, SplitLines(Flatten(ch.buffered[..|ch.buffered| - |r.1.buffered|])))
  {
    if ch.buffered == [] {
      ReadNothing(loads, ch, timeout, r);
    } else {
      var read := Accumulate(loads, "", ch, timeout);
      AccumulateReadsUntilDecodable(loads, "", ch, timeout);
      ReadFromEmpty(loads, ch, timeout, read, r);
    }
  }

  lemma ReadNothing(loads: string -> Option<Json>, ch: Channel, timeout: nat, r: (seq<Json>, Channel))
    requires ch.buffered == [] && r == ([], ch)
    ensures StopsAtFirstDecodable(loads, ch.buffered, timeout, |ch.buffered| - |r.1.buffered|)
    ensures r.0 == DecodeLines(loads, SplitLines(Flatten(ch.buffered[..|ch.buffered| - |r.1.buffered|])))
  {
    assert ch.buffered[..0] == [];
    assert Flatten(ch.buffered[..0]) == [];
  }

  /** The text a read loop started from nothing has read, decoded. */
  lemma ReadFromEmpty(loads: string -> Option<Json>, ch: Channel, timeout: nat, read: (string, Channel), r: (seq<Json>, Channel))
    requires ReadsUntilDecodable(loads, "", ch, timeout, read)
    requires |ch.buffered| - |read.1.buffered| <= timeout
    requires r == (DecodeLines(loads, SplitLines(read.0)), read.1)
    ensures StopsAtFirstDecodable(loads, ch.buffered, timeout, |ch.buffered| - |r.1.buffered|)
    ensures r.0 == DecodeLines(loads, SplitLines(Flatten(ch.buffered[..|ch.buffered| - |r.1.buffered|])))
  {
    var n := |ch.buffered| - |r.1.buffered|;
    assert read.0 == "" + Flatten(ch.buffered[..n]);
    assert read.0 == Flatten(ch.buffered[..n]);
    forall j | 0 < j < n ensures !AllDecodable(loads, Flatten(ch.buffered[..j])) {
      assert "" + Flatten(ch.buffered[..j]) == Flatten(ch.buffered[..j]);
    }
  }

  /** A value is decoded exactly when some non-empty line decodes to it: the
      undecodable and the empty lines are the ones dropped. */
  lemma DecodedIffSomeLine(loads: string -> Option<Json>, lines: seq<string>, o: Json)
    ensures o in DecodeLines(loads, lines) <==> exists i :: 0 <= i < |lines| && lines[i] != "" && loads(lines[i]) == Some(o)
  {
    FilterMapMember(LineDecoder(loads), lines, o);
    if o in DecodeLines(loads, lines) {
      var i :| 0 <= i < |lines| && LineDecoder(loads)(lines[i]) == Some(o);
      assert lines[i] != "" && loads(lines[i]) == Some(o);
    }
    if exists i :: 0 <= i < |lines| && lines[i] != "" && loads(lines[i]) == Some(o) {
      var i :| 0 <= i < |lines| && lines[i] != "" && loads(lines[i]) == Some(o);
      assert LineDecoder(loads)(lines[i]) == Some(o);
    }
  }

  /** Decoding keeps line order: the objects of a text are those of its first
      lines followed by those of the rest. */
  lemma DecodeInLineOrder(loads: string -> Option<Json>, a: seq<string>, b: seq<string>)
    ensures DecodeLines(loads, a + b) == DecodeLines(loads, a) + DecodeLines(loads, b)
  {
    FilterMapAppend(LineDecoder(loads), a, b);
  }

  /** When every line is non-empty and decodable (the state the read loop
      aims for), there is exactly one object per line, each line's own. */
  lemma DecodeAllLines(loads: string -> Option<Json>, s: string)
    requires AllDecodable(loads, s)
    requires forall i :: 0 <= i < |SplitLines(s)| ==> SplitLines(s)[i] != ""
    ensures |DecodeLines(loads, SplitLines(s))| == |SplitLines(s)|
    ensures forall i :: 0 <= i < |SplitLines(s)| ==> DecodeLines(loads, SplitLines(s))[i] == loads(SplitLines(s)[i]).value
  {
    var lines := SplitLines(s);
    assert forall i :: 0 <= i < |lines| ==> LineDecoder(loads)(lines[i]).Some?;
    FilterMapTotal(LineDecoder(loads), lines);
  }

  /** In the final decoding pass a complete, decodable line gives its object
      first, whatever text follows it. (The read loop before that pass does
      keep reading while a later line is incomplete.) */
  lemma CompleteLineDecodedFirst(loads: string -> Option<Json>, line: string, tail: string, o: Json)
    requires '\n' !in line
    requires line != "" && loads(line) == Some(o)
    ensures DecodeLines(loads, SplitLines(line + "\n" + tail)) == [o] + DecodeLines(loads, SplitLines(tail))
  {
    var s := line + "\n" + tail;
    NewlineIndexAfterLine(line, tail);
    assert s[..|line|] == line;
    assert s[|line| + 1..] == tail;
    assert SplitLines(s) == [line] + SplitLines(tail);
    DecodeInLineOrder(loads, [line], SplitLines(tail));
    assert DecodeLines(loads, [line]) == [o] by {
      assert [line][1..] == [];
    }
  }

  /** A first chunk holding one complete, decodable line is read alone and
      yields exactly that line's object. */
  lemma ReadOneLine(loads: string -> Option<Json>, ch: Channel, timeout: nat, line: string, o: Json)
    requires |ch.buffered| > 0 && ch.buffered[0] == line + "\n"
    requires timeout > 0
    requires line != "" && '\n' !in line
    requires loads(line) == Some(o)
    ensures ReadObjects(loads, ch, timeout) == ([o], Consume(ch, 1))
  {
    SingleLine(line);
    assert "" + ch.buffered[0] == line + "\n";
    assert AllDecodable(loads, line + "\n");
    assert Accumulate(loads, "", ch, timeout) == (line + "\n", Consume(ch, 1));
    assert DecodeLines(loads, [line]) == [o] by {
      assert [line][1..] == [];
    }
  }
}

=== FILE: engine.dfy ===
/** The command engine: envelopes, the lock-scoped send/await sequence of
    `cmd_raw`, and the reply interpretation of `cmd`. */
module Engine {
  import opened Wrappers
  import opened JsonValues
  import opened Seqs
  import opened Lines
  import opened Errors
  import opened Transport
  import opened Decoder
  import opened Correlator

  /** CMD_TIMEOUT, in polls. */
  const CmdTimeout: nat := 20

  /** `_build_cmd`: the envelope `{"execute": name}`, with `"arguments"`
      added when arguments are given (`args` is not None). */
  function BuildCmd(name: string, args: Json): (obj: Json)
    ensures obj.JObj?
    ensures obj.fields.Keys == if args == JNull then {"execute"} else {"execute", "arguments"}
    ensures obj.fields["execute"] == JStr(name)
    ensures "arguments" in obj.fields ==> obj.fields["arguments"] == args
  {
    var obj := map["execute" := JStr(name)];
    if args != JNull then JObj(obj["arguments" := args]) else JObj(obj)
  }

  /** How the guest agent reads an envelope: the command name and the
      arguments (None when absent); anything else is not an envelope. */
  function ReadEnvelope(obj: Json): Option<(string, Json)>
  {
    if obj.JObj? && "execute" in obj.fields && obj.fields["execute"].JStr?
       && obj.fields.Keys <= {"execute", "arguments"}
    then Some((obj.fields["execute"].s, if "arguments" in obj.fields then obj.fields["arguments"] else JNull))
    else None
  }

  /** Every built envelope reads back as the command and arguments it was
      built from. */
  lemma EnvelopeRoundTrip(name: string, args: Json)
    ensures ReadEnvelope(BuildCmd(name, args)) == Some((name, args))
  {
  }

  /** Conversely every envelope whose arguments, when present, are not None is
      the one built from what it reads as. */
  lemma EnvelopeIsBuilt(obj: Json)
    requires ReadEnvelope(obj).Some?
    requires "arguments" in obj.fields ==> obj.fields["arguments"] != JNull
    ensures BuildCmd(ReadEnvelope(obj).value.0, ReadEnvelope(obj).value.1) == obj
  {
    var (name, args) := ReadEnvelope(obj).value;
    var built := BuildCmd(name, args);
    assert built.fields.Keys == obj.fields.Keys;
  }

  /** `json.dumps(obj) + "\n"`: one record on the wire. */
  function Encode(env: Env, obj: Json): (data: string)
    ensures |data| > 0 && data[|data| - 1] == '\n'
    ensures '\n' !in env.dumps(obj) ==> SplitLines(data) == [env.dumps(obj)]
  {
    SingleLineIfFlat(env.dumps(obj));
    env.dumps(obj) + "\n"
  }

  /** The events of one `cmd_raw` call that took the lock: it starts by taking
      the lock and ends by releasing it, and in between only reads and at
      most one send of `data` happen. */
  ghost predicate LockedSession(events: seq<Event>, data: string)
  {
    && |events| >= 2
    && events[0] == Acquire
    && events[|events| - 1] == Release
    && (forall i :: 0 < i < |events| - 1 ==> events[i].Recv? || events[i] == Send(data))
    && forall i, j :: 0 < i < j < |events| - 1 && events[i].Send? ==> !events[j].Send?
  }

  lemma SessionShape(x: seq<string>, send: seq<Event>, y: seq<string>, data: string)
    requires send == [] || send == [Send(data)]
    ensures LockedSession([Acquire] + Recvs(x) + send + Recvs(y) + [Release], data)
  {
    var e := [Acquire] + Recvs(x) + send + Recvs(y) + [Release];
    forall i | 0 < i < |e| - 1 && (i != |x| + 1 || send == []) ensures e[i].Recv? {
      if i <= |x| {
        assert e[i] == Recvs(x)[i - 1];
      } else {
        assert e[i] == Recvs(y)[i - 1 - |x| - |send|];
      }
    }
    assert send != [] ==> e[|x| + 1] == Send(data);
  }

  /** The stale-data drain of `cmd_raw`: one `_read_objects` call whose
      objects are thrown away. */
  function Drain(env: Env, ch: Channel): (drained: Channel)
    ensures ReadsOnly(ch, drained)
  {
    ReadObjects(env.loads, ch, ReadObjectsTimeout).1
  }

  /** `cmd_raw`: with the lock taken, drain stale data, send `data`, and
      either return the empty mapping at once (no response expected) or wait
      for the reply; the lock is released on every path. */
  function CmdRaw(env: Env, ch: Channel, data: string, timeout: nat, successResp: bool): (r: (Result<map<string, Json>, AgentError>, Channel))
    ensures ch.locked ==> r == (Failure(LockError(data)), ch)
    ensures !ch.locked ==> !r.1.locked
    ensures !ch.locked ==>
      && |ch.trace| <= |r.1.trace|
      && r.1.trace[..|ch.trace|] == ch.trace
      && LockedSession(r.1.trace[|ch.trace|..], data)
    ensures r.0.Failure? ==> r.0.error == LockError(data) || r.0.error == SocketError(data)
    ensures !ch.locked ==> (r.0.Failure? <==> ch.sendFails)
    ensures r.0.Success? ==> r.0.value == map[] || IsReply(JObj(r.0.value))
    ensures r.0.Success? && !successResp ==> r.0.value == map[] && r.1.trace[|r.1.trace| - 2] == Send(data)
    ensures SentData(r.1.trace) == SentData(ch.trace) + (if !ch.locked && !ch.sendFails then [data] else [])
    ensures r.1.sendFails == ch.sendFails
  {
    if ch.locked then (Failure(LockError(data)), ch)
    else
      var held := Lock(ch);
      var drained := Drain(env, held);
      var sent := SendRecord(env, drained, data);
      if sent.Failure? then
        ReadsNothing(drained);
        SessionTrace(ch, drained, [], drained, drained, data);
        (Failure(sent.error), Unlock(drained))
      else if !successResp then
        ReadsNothing(sent.value);
        SessionTrace(ch, drained, [Send(data)], sent.value, sent.value, data);
        (Success(map[]), Unlock(sent.value))
      else
        var resp := GetResponse(env.loads, sent.value, timeout);
        SessionTrace(ch, drained, [Send(data)], sent.value, resp.1, data);
        // The source checks `r is None` here; the correlator always yields a
        // mapping, so that ProtocolError is never raised.
        (Success(resp.0), Unlock(resp.1))
  }

  /** The trace of a `cmd_raw` call that took the lock on `ch`, drained into
      `drained`, recorded `send` and then read into `final`. */
  lemma SessionTrace(ch: Channel, drained: Channel, send: seq<Event>, sent: Channel, final: Channel, data: string)
    requires ReadsOnly(Lock(ch), drained)
    requires send == [] || send == [Send(data)]
    requires sent.trace == drained.trace + send
    requires ReadsOnly(sent, final)
    ensures |ch.trace| <= |Unlock(final).trace|
    ensures Unlock(final).trace[..|ch.trace|] == ch.trace
    ensures LockedSession(Unlock(final).trace[|ch.trace|..], data)
    ensures SentData(Unlock(final).trace) == SentData(ch.trace) + (if send == [] then [] else [data])
    ensures final == sent && send != [] ==> Unlock(final).trace[|Unlock(final).trace| - 2] == Send(data)
  {
    SessionEvents(ch, drained, send, sent, final, data);
    SessionSends(ch, drained, send, sent, final, data);
  }

  lemma SessionEvents(ch: Channel, drained: Channel, send: seq<Event>, sent: Channel, final: Channel, data: string)
    requires ReadsOnly(Lock(ch), drained)
    requires send == [] || send == [Send(data)]
    requires sent.trace == drained.trace + send
    requires ReadsOnly(sent, final)
    ensures |ch.trace| <= |Unlock(final).trace|
    ensures Unlock(final).trace[..|ch.trace|] == ch.trace
    ensures LockedSession(Unlock(final).trace[|ch.trace|..], data)
    ensures final == sent && send != [] ==> Unlock(final).trace[|Unlock(final).trace| - 2] == Send(data)
  {
    var held := Lock(ch);
    var x := held.buffered[..|held.buffered| - |drained.buffered|];
    var y := sent.buffered[..|sent.buffered| - |final.buffered|];
    var middle := [Acquire] + Recvs(x) + send + Recvs(y);
    assert final.trace == sent.trace + Recvs(y);
    assert Unlock(final).trace == ch.trace + middle + [Release];
    SessionShape(x, send, y, data);
    CloseSession(ch.trace, middle, Release);
  }

  lemma SessionSends(ch: Channel, drained: Channel, send: seq<Event>, sent: Channel, final: Channel, data: string)
    requires ReadsOnly(Lock(ch), drained)
    requires send == [] || send == [Send(data)]
    requires sent.trace == drained.trace + send
    requires ReadsOnly(sent, final)
    ensures SentData(Unlock(final).trace) == SentData(ch.trace) + (if send == [] then [] else [data])
  {
    SentDataStep(ch.trace, Acquire);
    ReadsOnlySendsNothing(Lock(ch), drained);
    if send == [] {
      assert sent.trace == drained.trace;
    } else {
      SentDataStep(drained.trace, Send(data));
    }
    ReadsOnlySendsNothing(sent, final);
    SentDataStep(final.trace, Release);
  }

  /** `cmd_obj`: sends any object as one record and returns the raw reply
      mapping, uninterpreted. */
  function CmdObj(env: Env, ch: Channel, obj: Json, timeout: nat): (r: (Result<map<string, Json>, AgentError>, Channel))
    ensures !ch.locked && !ch.sendFails ==> SentData(r.1.trace) == SentData(ch.trace) + [Encode(env, obj)]
    ensures r.0.Failure? ==> r.0.error == LockError(Encode(env, obj)) || r.0.error == SocketError(Encode(env, obj))
    ensures r.0.Success? ==> r.0.value == map[] || IsReply(JObj(r.0.value))
  {
    CmdRaw(env, ch, Encode(env, obj), timeout, true)
  }

  /** What `cmd` makes of a reply mapping: the `"return"` member if there is
      one (even beside an `"error"` member), else a VAgentCmdError carrying
      the command, its arguments and the `"error"` member, else None. */
  function Interpret(name: string, args: Json, reply: map<string, Json>): (r: Result<Json, AgentError>)
    ensures r.Failure? <==> "error" in reply && "return" !in reply
    ensures r.Failure? ==> r.error == CmdError(name, args, reply["error"])
    ensures "return" in reply ==> r == Success(reply["return"])
    ensures "return" !in reply && "error" !in reply ==> r == Success(JNull)
  {
    if "return" in reply then Success(reply["return"])
    else if "error" in reply then Failure(CmdError(name, args, reply["error"]))
    else Success(JNull)
  }

  /** `cmd`: sends the envelope for `name` and `args`; without a response
      expected the result is the empty string, otherwise the interpreted
      reply. Lock and socket errors of `cmd_raw` propagate. */
  function Cmd(env: Env, ch: Channel, name: string, args: Json, timeout: nat, successResp: bool): (r: (Result<Json, AgentError>, Channel))
    ensures !ch.locked && !ch.sendFails ==> SentData(r.1.trace) == SentData(ch.trace) + [Encode(env, BuildCmd(name, args))]
    ensures ch.locked ==> r == (Failure(LockError(Encode(env, BuildCmd(name, args)))), ch)
    ensures !ch.locked ==> !r.1.locked
    ensures r.1 == CmdRaw(env, ch, Encode(env, BuildCmd(name, args)), timeout, successResp).1
    ensures r.0.Failure? ==>
      || r.0.error.LockError? || r.0.error.SocketError?
      || (r.0.error.CmdError? && r.0.error.cmd == name && r.0.error.args == args)
    ensures !successResp && r.0.Success? ==> r.0.value == JStr("")
    ensures !successResp && !ch.locked && !ch.sendFails ==>
      && r.0 == Success(JStr(""))
      && |r.1.trace| >= 2
      && r.1.trace[|r.1.trace| - 2] == Send(Encode(env, BuildCmd(name, args)))
  {
    var raw := CmdRaw(env, ch, Encode(env, BuildCmd(name, args)), timeout, successResp);
    if raw.0.Failure? then (Failure(raw.0.error), raw.1)
    else if !successResp then (Success(JStr("")), raw.1)
    else (Interpret(name, args, raw.0.value), raw.1)
  }

  /** Stale data is drained before the send: between taking the lock and
      sending, `cmd_raw` reads only chunks that were buffered before it began,
      oldest first. */
  lemma DrainBeforeSend(env: Env, ch: Channel, data: string, timeout: nat, successResp: bool, r: (Result<map<string, Json>, AgentError>, Channel))
    requires !ch.locked && !ch.sendFails
    requires r == CmdRaw(env, ch, data, timeout, successResp)
    ensures exists n :: (0 <= n <= |ch.buffered| && |ch.trace| + n + 2 <= |r.1.trace|
      && r.1.trace[|ch.trace|..|ch.trace| + n + 2] == [Acquire] + Recvs(ch.buffered[..n]) + [Send(data)])
  {
    var drained := Drain(env, Lock(ch));
    var sent := SendRecord(env, drained, data).value;
    if successResp {
      var final := GetResponse(env.loads, sent, timeout).1;
      assert r.1 == Unlock(final);
      SessionPrefix(ch, drained, sent, final, data);
    } else {
      ReadsNothing(sent);
      assert r.1 == Unlock(sent);
      SessionPrefix(ch, drained, sent, sent, data);
    }
  }

  lemma SessionPrefix(ch: Channel, drained: Channel, sent: Channel, final: Channel, data: string)
    requires ReadsOnly(Lock(ch), drained)
    requires sent.trace == drained.trace + [Send(data)]
    requires ReadsOnly(sent, final)
    ensures exists n :: (0 <= n <= |ch.buffered| && |ch.trace| + n + 2 <= |Unlock(final).trace|
      && Unlock(final).trace[|ch.trace|..|ch.trace| + n + 2] == [Acquire] + Recvs(ch.buffered[..n]) + [Send(data)])
  {
    var n := |ch.buffered| - |drained.buffered|;
    var rest := sent.buffered[..|sent.buffered| - |final.buffered|];
    var prefix := [Acquire] + Recvs(ch.buffered[..n]) + [Send(data)];
    assert sent.trace == ch.trace + prefix;
    var t := Unlock(final).trace;
    assert t == ch.trace + prefix + Recvs(rest) + [Release];
    assert t[|ch.trace|..|ch.trace| + n + 2] == prefix;
  }

  /** Reference answer: every object the client's decoder would read, batch
      by batch within `timeout` polls, from the channel as it stands right
      after `cmd_raw` has drained stale data and sent `data`. */
  ghost function StreamAfterSend(env: Env, ch: Channel, data: string, timeout: nat): seq<Json>
    requires !ch.sendFails
  {
    var drained := Drain(env, Lock(ch));
    Flatten(Batches(ObjectReader(env.loads), SendRecord(env, drained, data).value, timeout))
  }

  /** On a free lock and a working socket, `cmd_raw` waiting for a response
      answers with the first reply of the stream read after its send, and
      with `{}` exactly when that stream holds no reply. */
  lemma CmdRawAnswer(env: Env, ch: Channel, data: string, timeout: nat)
    requires !ch.locked && !ch.sendFails
    ensures CmdRaw(env, ch, data, timeout, true).0 == Success(FirstReply(StreamAfterSend(env, ch, data, timeout)).GetOr(map[]))
    ensures CmdRaw(env, ch, data, timeout, true).0 == Success(map[]) <==> FirstReply(StreamAfterSend(env, ch, data, timeout)).None?
  {
    var sent := SendRecord(env, Drain(env, Lock(ch)), data).value;
    ResponseIsFirstReplyOfStream(env.loads, sent, timeout);
  }

  /** `cmd_obj` always waits: its answer is the first reply read after
      sending the encoded object, or `{}` when none arrives. */
  lemma CmdObjAnswer(env: Env, ch: Channel, obj: Json, timeout: nat)
    requires !ch.locked && !ch.sendFails
    ensures CmdObj(env, ch, obj, timeout).0 == Success(FirstReply(StreamAfterSend(env, ch, Encode(env, obj), timeout)).GetOr(map[]))
  {
    CmdRawAnswer(env, ch, Encode(env, obj), timeout);
  }

  /** `cmd` waiting for a response interprets the first reply read after
      sending its envelope, or `{}` when none arrives (which gives None). */
  lemma CmdAnswer(env: Env, ch: Channel, name: string, args: Json, timeout: nat)
    requires !ch.locked && !ch.sendFails
    ensures Cmd(env, ch, name, args, timeout, true).0
         == Interpret(name, args, FirstReply(StreamAfterSend(env, ch, Encode(env, BuildCmd(name, args)), timeout)).GetOr(map[]))
  {
    CmdRawAnswer(env, ch, Encode(env, BuildCmd(name, args)), timeout);
  }

  /** An agent that answers `data` with the single line `line`. */
  ghost predicate AnswersWith(env: Env, data: string, line: string)
  {
    && env.respond(data) == [line + "\n"]
    && line != "" && '\n' !in line
  }

  /** On an idle channel whose agent answers with one reply line, `cmd_raw`
      returns exactly that reply and consumes exactly that line. */
  lemma CmdRawReturnsReply(env: Env, ch: Channel, data: string, timeout: nat, line: string, m: map<string, Json>)
    requires !ch.locked && !ch.sendFails && ch.buffered == []
    requires timeout > 0
    requires AnswersWith(env, data, line)
    requires env.loads(line) == Some(JObj(m)) && IsReply(JObj(m))
    ensures CmdRaw(env, ch, data, timeout, true).0 == Success(m)
    ensures CmdRaw(env, ch, data, timeout, true).1.buffered == []
  {
    var held := Lock(ch);
    assert Drain(env, held) == held;
    var sent := SendRecord(env, held, data).value;
    assert sent.buffered == [line + "\n"];
    ReplyOnFirstLine(env.loads, sent, timeout, line, m);
  }

  /** Scenario: the reply `{"return": v}` makes `cmd` return `v`. */
  lemma CmdReturnsReturnMember(env: Env, ch: Channel, name: string, args: Json, timeout: nat, line: string, m: map<string, Json>)
    requires !ch.locked && !ch.sendFails && ch.buffered == []
    requires timeout > 0
    requires AnswersWith(env, Encode(env, BuildCmd(name, args)), line)
    requires env.loads(line) == Some(JObj(m)) && "return" in m
    ensures Cmd(env, ch, name, args, timeout, true).0 == Success(m["return"])
  {
    CmdRawReturnsReply(env, ch, Encode(env, BuildCmd(name, args)), timeout, line, m);
  }

  /** Scenario: the reply `{"error": d}` makes `cmd` raise VAgentCmdError with
      the command, its arguments and `d`. */
  lemma CmdRaisesErrorMember(env: Env, ch: Channel, name: string, args: Json, timeout: nat, line: string, m: map<string, Json>)
    requires !ch.locked && !ch.sendFails && ch.buffered == []
    requires timeout > 0
    requires AnswersWith(env, Encode(env, BuildCmd(name, args)), line)
    requires env.loads(line) == Some(JObj(m)) && "error" in m && "return" !in m
    ensures Cmd(env, ch, name, args, timeout, true).0 == Failure(CmdError(name, args, m["error"]))
  {
    CmdRawReturnsReply(env, ch, Encode(env, BuildCmd(name, args)), timeout, line, m);
  }

  /** `cmd_obj` hands back an error reply as it came, without raising. */
  lemma CmdObjKeepsErrorReply(env: Env, ch: Channel, obj: Json, timeout: nat, line: string, m: map<string, Json>)
    requires !ch.locked && !ch.sendFails && ch.buffered == []
    requires timeout > 0
    requires AnswersWith(env, Encode(env, obj), line)
    requires env.loads(line) == Some(JObj(m)) && "error" in m
    ensures CmdObj(env, ch, obj, timeout).0 == Success(m)
  {
    CmdRawReturnsReply(env, ch, Encode(env, obj), timeout, line, m);
  }

  /** A silent agent is not an error: after the budget `cmd_raw` returns the
      empty mapping (VAgentProtocolError is never raised) and `cmd` returns
      None. */
  lemma SilenceReturnsNone(env: Env, ch: Channel, name: string, args: Json, timeout: nat)
    requires !ch.locked && !ch.sendFails && ch.buffered == []
    requires env.respond(Encode(env, BuildCmd(name, args))) == []
    ensures CmdRaw(env, ch, Encode(env, BuildCmd(name, args)), timeout, true).0 == Success(map[])
    ensures Cmd(env, ch, name, args, timeout, true).0 == Success(JNull)
  {
    var data := Encode(env, BuildCmd(name, args));
    var held := Lock(ch);
    assert Drain(env, held) == held;
    var sent := SendRecord(env, held, data).value;
    assert sent.buffered == [];
    SilenceIsEmpty(env.loads, sent, timeout);
  }

  /** The drain reads only until the lines read so far decode. A stale
      reply that arrives on its own after an earlier complete, decodable stale
      line (a late answer to a command that timed out) stays buffered, and it
      is returned as the answer to the new command, whatever the agent
      answers to it. */
  lemma StaleReplyAnswers(env: Env, ch: Channel, data: string, timeout: nat, l1: string, m1: map<string, Json>, l2: string, m2: map<string, Json>)
    requires !ch.locked && !ch.sendFails
    requires ch.buffered == [l1 + "\n", l2 + "\n"]
    requires timeout > 0
    requires l1 != "" && '\n' !in l1 && env.loads(l1) == Some(JObj(m1))
    requires l2 != "" && '\n' !in l2 && env.loads(l2) == Some(JObj(m2)) && IsReply(JObj(m2))
    ensures CmdRaw(env, ch, data, timeout, true).0 == Success(m2)
  {
    var held := Lock(ch);
    ReadOneLine(env.loads, held, ReadObjectsTimeout, l1, JObj(m1));
    var drained := Drain(env, held);
    assert drained.buffered == [l2 + "\n"];
    var sent := SendRecord(env, drained, data).value;
    assert sent.buffered == [l2 + "\n"] + env.respond(data);
    ReplyOnFirstLine(env.loads, sent, timeout, l2, m2);
  }

  /** Stale replies that arrived together are read by one `_recvall` and
      drained together: the answer is the agent's reply to the new command. */
  lemma QueuedStaleRepliesDrained(env: Env, ch: Channel, data: string, timeout: nat, l1: string, l2: string, line: string, m: map<string, Json>)
    requires !ch.locked && !ch.sendFails
    requires ch.buffered == [l1 + "\n" + l2 + "\n"]
    requires timeout > 0
    requires l1 != "" && '\n' !in l1 && env.loads(l1).Some?
    requires l2 != "" && '\n' !in l2 && env.loads(l2).Some?
    requires AnswersWith(env, data, line)
    requires env.loads(line) == Some(JObj(m)) && IsReply(JObj(m))
    ensures CmdRaw(env, ch, data, timeout, true).0 == Success(m)
  {
    var held := Lock(ch);
    var stale := l1 + "\n" + l2 + "\n";
    assert Terminated([l1, l2]) == l1 + "\n" + Terminated([l2]);
    assert Terminated([l2]) == l2 + "\n" + Terminated([]);
    assert Terminated([l1, l2]) == stale;
    TerminateThenSplit([l1, l2]);
    assert "" + held.buffered[0] == stale;
    assert AllDecodable(env.loads, stale);
    var drained := Drain(env, held);
    assert drained.buffered == [];
    var sent := SendRecord(env, drained, data).value;
    assert sent.buffered == [line + "\n"];
    ReplyOnFirstLine(env.loads, sent, timeout, line, m);
  }

  /** As written, a held lock does not raise VAgentLockError: building it
      fails, so `cmd` raises `TypeError`, and still nothing is sent. */
  lemma LockedRaisesTypeErrorAsWritten(env: Env, ch: Channel, name: string, args: Json, timeout: nat, successResp: bool)
    requires ch.locked
    ensures Cmd(env, ch, name, args, timeout, successResp).0.Failure?
    ensures Cmd(env, ch, name, args, timeout, successResp).0.error.LockError?
    ensures AsWritten(Cmd(env, ch, name, args, timeout, successResp)) == (Failure(TypeError), ch)
  {
  }

  /** As written, a rejected send raises `TypeError` instead of
      VAgentSocketError; the lock is still released. */
  lemma RejectedSendRaisesTypeErrorAsWritten(env: Env, ch: Channel, data: string, timeout: nat, successResp: bool)
    requires !ch.locked && ch.sendFails
    ensures CmdRaw(env, ch, data, timeout, successResp).0 == Failure(SocketError(data))
    ensures AsWritten(CmdRaw(env, ch, data, timeout, successResp)).0 == Failure(TypeError)
    ensures !AsWritten(CmdRaw(env, ch, data, timeout, successResp)).1.locked
  {
  }

  /** As written, an error reply makes `cmd` raise `TypeError`: the
      VAgentCmdError that would carry the command, its arguments and the
      error payload cannot be built. */
  lemma ErrorReplyRaisesTypeErrorAsWritten(env: Env, ch: Channel, name: string, args: Json, timeout: nat, line: string, m: map<string, Json>)
    requires !ch.locked && !ch.sendFails && ch.buffered == []
    requires timeout > 0
    requires AnswersWith(env, Encode(env, BuildCmd(name, args)), line)
    requires env.loads(line) == Some(JObj(m)) && "error" in m && "return" !in m
    ensures Cmd(env, ch, name, args, timeout, true).0 == Failure(CmdError(name, args, m["error"]))
    ensures AsWritten(Cmd(env, ch, name, args, timeout, true)).0 == Failure(TypeError)
  {
    CmdRaisesErrorMember(env, ch, name, args, timeout, line, m);
  }

  lemma CloseSession(before: seq<Event>, middle: seq<Event>, last: Event)
    ensures (before + middle + [last])[..|before|] == before
    ensures (before + middle + [last])[|before|..] == middle + [last]
  {
  }

  lemma SentDataStep(trace: seq<Event>, e: Event)
    ensures SentData(trace + [e]) == SentData(trace) + (if e.Send? then [e.data] else [])
  {
    assert (trace + [e])[..|trace|] == trace;
  }
}

=== FILE: errors.dfy ===
/** The error taxonomy the client means to raise. `AttributeError` and
    `TypeError` stand for the Python built-in exceptions; they are not agent
    errors, so the constructor's handler lets them escape. The agent errors
    are the intended exception classes: as written none of them can be built
    with arguments, and `RaisedAsWritten` gives what is raised instead. */
module Errors {
  import opened Wrappers
  import opened JsonValues

  datatype AgentError =
    | LockError(data: string)          // the exclusive lock could not be taken
    | SocketError(data: string)        // sending `data` failed
    | ProtocolError(data: string)      // no response to `data`
    | CmdError(cmd: string, args: Json, errorData: Json)  // the agent answered with "error"
    | AttributeError(attr: string)     // a missing attribute or method was used
    | TypeError                        // a non-iterable value was iterated, or a constructor got too many arguments

  /** True for the errors of the agent family, the ones the constructor's
      handler catches. */
  predicate IsAgentError(e: AgentError) {
    !e.AttributeError? && !e.TypeError?
  }

  /** The exception the client actually raises when it means to raise `e`.
      `VAgentError.__init__` takes no arguments, so building any agent error
      with arguments fails with `TypeError`; the built-in errors are raised
      as they are. */
  function RaisedAsWritten(e: AgentError): (raised: AgentError)
    ensures !IsAgentError(raised)
    ensures IsAgentError(e) ==> raised == TypeError
    ensures !IsAgentError(e) ==> raised == e
  {
    if IsAgentError(e) then TypeError else e
  }

  /** An outcome as the client produces it: the same state, and the error
      it means to raise replaced by the one it does raise. */
  function AsWritten<T, S>(r: (Result<T, AgentError>, S)): (w: (Result<T, AgentError>, S))
    ensures w.1 == r.1
    ensures r.0.Success? ==> w == r
    ensures r.0.Failure? ==> w.0 == Failure(RaisedAsWritten(r.0.error))
    ensures w.0.Failure? ==> !IsAgentError(w.0.error)
  {
    if r.0.Failure? then (Failure(RaisedAsWritten(r.0.error)), r.1) else r
  }
}

=== FILE: json.dfy ===
/** Decoded protocol values: the structures the json library produces and
    consumes. Python's `None` and the JSON `null` are the same value in the
    client, so both are `JNull` here. Numbers are integers. */
module JsonValues {

  datatype Json =
    | JNull
    | JBool(b: bool)
    | JNum(n: int)
    | JStr(s: string)
    | JArr(items: seq<Json>)
    | JObj(fields: map<string, Json>)

  /** Python truthiness of a decoded value: `None`, `False`, `0`, and empty
      strings, lists and mappings are false. */
  predicate Truthy(v: Json) {
    match v
    case JNull => false
    case JBool(b) => b
    case JNum(n) => n != 0
    case JStr(s) => s != ""
    case JArr(items) => items != []
    case JObj(fields) => fields != map[]
  }
}

=== FILE: lines.dfy ===
/** Splitting received text into lines. Python's `str.splitlines` is modelled
    on the newline character only: a final newline does not produce a
    trailing empty line, and the empty text has no lines. */
module Lines {

  /** Position of the first newline in `s`, or `|s|` when there is none. */
  function NewlineIndex(s: string): (k: nat)
    ensures k <= |s|
    ensures k < |s| ==> s[k] == '\n'
    ensures forall i :: 0 <= i < k ==> s[i] != '\n'
  {
    if s == "" then 0
    else if s[0] == '\n' then 0
    else 1 + NewlineIndex(s[1..])
  }

  /** The lines of `s`, without their terminating newlines. */
  function SplitLines(s: string): (lines: seq<string>)
    ensures forall i :: 0 <= i < |lines| ==> '\n' !in lines[i]
    ensures lines == [] <==> s == ""
    decreases |s|
  {
    if s == "" then []
    else
      var k := NewlineIndex(s);
      if k == |s| then [s] else [s[..k]] + SplitLines(s[k + 1..])
  }

  /** Every line followed by a newline: the wire form of a sequence of records. */
  function Terminated(lines: seq<string>): string
  {
    if lines == [] then "" else lines[0] + "\n" + Terminated(lines[1..])
  }

  /** Splitting and re-terminating gives back the text, with a newline added
      only when the last line was unterminated. */
  lemma {:induction false} SplitThenTerminate(s: string)
    ensures Terminated(SplitLines(s)) == if s == "" || s[|s| - 1] == '\n' then s else s + "\n"
    decreases |s|
  {
    if s != "" {
      var k := NewlineIndex(s);
      if k == |s| {
        assert SplitLines(s) == [s];
        assert Terminated([s]) == s + "\n" + Terminated([]);
      } else {
        var line, rest := s[..k], s[k + 1..];
        assert s == line + "\n" + rest;
        assert Terminated(SplitLines(s)) == line + "\n" + Terminated(SplitLines(rest));
        SplitThenTerminate(rest);
        if rest == "" {
          assert s[|s| - 1] == '\n';
        } else {
          assert rest[|rest| - 1] == s[|s| - 1];
          if s[|s| - 1] != '\n' {
            assert line + "\n" + (rest + "\n") == s + "\n";
          }
        }
      }
    }
  }

  lemma NewlineIndexAfterLine(line: string, rest: string)
    requires '\n' !in line
    ensures NewlineIndex(line + "\n" + rest) == |line|
    decreases |line|
  {
    if line != "" {
      assert (line + "\n" + rest)[1..] == line[1..] + "\n" + rest;
      NewlineIndexAfterLine(line[1..], rest);
    }
  }

  /** A newline-free line followed by a newline is split off first. */
  lemma SplitFirstLine(line: string, rest: string)
    requires '\n' !in line
    ensures SplitLines(line + "\n" + rest) == [line] + SplitLines(rest)
  {
    var s := line + "\n" + rest;
    NewlineIndexAfterLine(line, rest);
    assert s[..|line|] == line;
    assert s[|line| + 1..] == rest;
  }

  /** Terminating newline-free lines and splitting the result recovers them. */
  lemma {:induction false} TerminateThenSplit(lines: seq<string>)
    requires forall i :: 0 <= i < |lines| ==> '\n' !in lines[i]
    ensures SplitLines(Terminated(lines)) == lines
  {
    if lines != [] {
      var rest := Terminated(lines[1..]);
      assert Terminated(lines) == lines[0] + "\n" + rest;
      SplitFirstLine(lines[0], rest);
      TerminateThenSplit(lines[1..]);
      assert lines == [lines[0]] + lines[1..];
    }
  }

  /** A single newline-free, non-empty record followed by a newline is one line. */
  /** SingleLine for any text: a text holding a newline is left unconstrained. */
  lemma SingleLineIfFlat(line: string)
    ensures '\n' !in line ==> SplitLines(line + "\n") == [line]
  {
    if '\n' !in line {
      SingleLine(line);
    }
  }

  lemma SingleLine(line: string)
    requires '\n' !in line
    ensures SplitLines(line + "\n") == [line]
  {
    TerminateThenSplit([line]);
    assert Terminated([line]) == line + "\n" + Terminated([]);
  }
}

=== FILE: seqs.dfy ===
/** Generic sequence helpers: filtering through a partial map, and flattening. */
module Seqs {
  import opened Wrappers

  /** The elements of `o` as a sequence of length 0 or 1. */
  function Keep<B>(o: Option<B>): (ys: seq<B>)
    ensures |ys| <= 1
    ensures o.Some? ==> ys == [o.value]
    ensures o.None? ==> ys == []
  {
    match o
    case Some(y) => [y]
    case None => []
  }

  /** Applies `f` to every element of `xs`, in order, keeping the results of
      the elements that `f` accepts and dropping the others. */
  function FilterMap<A, B>(f: A -> Option<B>, xs: seq<A>): (ys: seq<B>)
    ensures |ys| <= |xs|
  {
    if xs == [] then [] else Keep(f(xs[0])) + FilterMap(f, xs[1..])
  }

  /** Concatenation of a sequence of sequences. */
  function Flatten<T>(xss: seq<seq<T>>): (ys: seq<T>)
  {
    if xss == [] then [] else xss[0] + Flatten(xss[1..])
  }

  /** FilterMap works line by line: it distributes over concatenation, so the
      result keeps the input order. */
  lemma {:induction false} FilterMapAppend<A, B>(f: A -> Option<B>, xs: seq<A>, ys: seq<A>)
    ensures FilterMap(f, xs + ys) == FilterMap(f, xs) + FilterMap(f, ys)
  {
    if xs == [] {
      assert xs + ys == ys;
    } else {
      assert (xs + ys)[1..] == xs[1..] + ys;
      FilterMapAppend(f, xs[1..], ys);
    }
  }

  /** A value is in the result exactly when some element is mapped to it. */
  lemma {:induction false} FilterMapMember<A, B>(f: A -> Option<B>, xs: seq<A>, y: B)
    ensures y in FilterMap(f, xs) <==> exists i :: 0 <= i < |xs| && f(xs[i]) == Some(y)
  {
    if xs != [] {
      FilterMapMember(f, xs[1..], y);
      if y in FilterMap(f, xs[1..]) {
        var i :| 0 <= i < |xs[1..]| && f(xs[1..][i]) == Some(y);
        assert f(xs[i + 1]) == Some(y);
      }
      if exists i :: 0 <= i < |xs| && f(xs[i]) == Some(y) {
        var i :| 0 <= i < |xs| && f(xs[i]) == Some(y);
        if i > 0 {
          assert f(xs[1..][i - 1]) == Some(y);
        }
      }
    }
  }

  /** When `f` accepts every element nothing is dropped: the result is the
      element-wise image of `xs`. */
  lemma {:induction false} FilterMapTotal<A, B>(f: A -> Option<B>, xs: seq<A>)
    requires forall i :: 0 <= i < |xs| ==> f(xs[i]).Some?
    ensures |FilterMap(f, xs)| == |xs|
    ensures forall i :: 0 <= i < |xs| ==> FilterMap(f, xs)[i] == f(xs[i]).value
  {
    if xs != [] {
      assert forall i :: 0 <= i < |xs[1..]| ==> f(xs[1..][i]).Some? by {
        forall i | 0 <= i < |xs[1..]| ensures f(xs[1..][i]).Some? {
          assert xs[1..][i] == xs[i + 1];
        }
      }
      FilterMapTotal(f, xs[1..]);
    }
  }

  /** Conversely, a result as long as the input means nothing was dropped. */
  lemma {:induction false} FilterMapKeepsAll<A, B>(f: A -> Option<B>, xs: seq<A>)
    ensures |FilterMap(f, xs)| == |xs| <==> forall i :: 0 <= i < |xs| ==> f(xs[i]).Some?
  {
    if xs != [] {
      FilterMapKeepsAll(f, xs[1..]);
      if |FilterMap(f, xs)| == |xs| {
        assert f(xs[0]).Some?;
        forall i | 0 <= i < |xs| ensures f(xs[i]).Some? {
          if i > 0 {
            assert xs[i] == xs[1..][i - 1];
          }
        }
      } else if forall i :: 0 <= i < |xs| ==> f(xs[i]).Some? {
        FilterMapTotal(f, xs);
      }
    }
  }

  /** Flatten distributes over concatenation. */
  lemma FlattenCons<T>(xs: seq<T>, yss: seq<seq<T>>)
    ensures Flatten([xs] + yss) == xs + Flatten(yss)
  {
    assert ([xs] + yss)[1..] == yss;
  }

  lemma {:induction false} FlattenAppend<T>(xss: seq<seq<T>>, yss: seq<seq<T>>)
    ensures Flatten(xss + yss) == Flatten(xss) + Flatten(yss)
  {
    if xss == [] {
      assert xss + yss == yss;
    } else {
      assert (xss + yss)[1..] == xss[1..] + yss;
      FlattenAppend(xss[1..], yss);
    }
  }
}

=== FILE: transport.dfy ===
/** The channel the client talks over, seen from the client: the chunks that
    have arrived and are waiting to be read, the exclusive lock, and a trace of
    everything the client did on it. The json library and the guest agent on
    the far side are parameters (`Env`). Time is counted in polls: a poll with
    a budget of zero polls never sees data. */
module Transport {
  import opened Wrappers
  import opened JsonValues
  import opened Errors

  /** One observable action on the channel. */
  datatype Event = Acquire | Release | Recv(chunk: string) | Send(data: string) | Close

  /** `buffered` are the arrivals not yet read, in order. A chunk is one
      arrival: the bytes that were queued when a `_recvall` ran, so data that
      arrived together is one chunk and one `_recvall` reads one chunk.
      `sendFails` says whether the socket rejects sends. */
  datatype Channel = Channel(buffered: seq<string>, sendFails: bool, locked: bool, trace: seq<Event>)

  /** What the client cannot see: `loads` and `dumps` of the json library, and
      the guest agent, which answers each sent record with the chunks it
      writes back. */
  datatype Env = Env(loads: string -> Option<Json>, dumps: Json -> string, respond: string -> seq<string>)

  /** The receive events for `chunks`, in order. */
  function Recvs(chunks: seq<string>): (events: seq<Event>)
    ensures |events| == |chunks|
    ensures forall i :: 0 <= i < |chunks| ==> events[i] == Recv(chunks[i])
  {
    seq(|chunks|, i requires 0 <= i < |chunks| => Recv(chunks[i]))
  }

  lemma RecvsAppend(a: seq<string>, b: seq<string>)
    ensures Recvs(a + b) == Recvs(a) + Recvs(b)
  {
  }

  /** The chunks a trace has read, in order. */
  function Received(trace: seq<Event>): seq<string>
  {
    if trace == [] then []
    else
      var e := trace[|trace| - 1];
      Received(trace[..|trace| - 1]) + (if e.Recv? then [e.chunk] else [])
  }

  /** The records a trace has sent, in order. */
  function SentData(trace: seq<Event>): seq<string>
  {
    if trace == [] then []
    else
      var e := trace[|trace| - 1];
      SentData(trace[..|trace| - 1]) + (if e.Send? then [e.data] else [])
  }

  lemma {:induction false} ReceivedRecvs(trace: seq<Event>, chunks: seq<string>)
    ensures Received(trace + Recvs(chunks)) == Received(trace) + chunks
    ensures SentData(trace + Recvs(chunks)) == SentData(trace)
    decreases |chunks|
  {
    if chunks == [] {
      assert trace + Recvs(chunks) == trace;
    } else {
      var init := chunks[..|chunks| - 1];
      var last := chunks[|chunks| - 1];
      assert chunks == init + [last];
      RecvsAppend(init, [last]);
      var t := trace + Recvs(init) + [Recv(last)];
      assert trace + Recvs(chunks) == t;
      assert t[..|t| - 1] == trace + Recvs(init);
      ReceivedRecvs(trace, init);
    }
  }

  /** The channel after its first `n` buffered chunks have been read. */
  function Consume(ch: Channel, n: nat): Channel
    requires n <= |ch.buffered|
  {
    ch.(buffered := ch.buffered[n..], trace := ch.trace + Recvs(ch.buffered[..n]))
  }

  /** Reading moves chunks from the buffer to the trace: nothing is lost and
      nothing is invented, and nothing is sent. */
  lemma ConsumeConserves(ch: Channel, n: nat)
    requires n <= |ch.buffered|
    ensures Received(Consume(ch, n).trace) + Consume(ch, n).buffered == Received(ch.trace) + ch.buffered
    ensures SentData(Consume(ch, n).trace) == SentData(ch.trace)
  {
    ReceivedRecvs(ch.trace, ch.buffered[..n]);
    Reassemble(Received(ch.trace), ch.buffered, n);
  }

  lemma Reassemble(r: seq<string>, b: seq<string>, n: nat)
    requires n <= |b|
    ensures (r + b[..n]) + b[n..] == r + b
  {
    assert b[..n] + b[n..] == b;
  }

  lemma ConsumeTwice(ch: Channel, n: nat, m: nat)
    requires n + m <= |ch.buffered|
    ensures Consume(Consume(ch, n), m) == Consume(ch, n + m)
  {
    var b := ch.buffered;
    var c1 := Consume(ch, n);
    assert c1.buffered == b[n..];
    assert b[n..][m..] == b[n + m..];
    assert b[..n + m] == b[..n] + b[n..][..m];
    RecvsAppend(b[..n], b[n..][..m]);
    assert c1.trace + Recvs(c1.buffered[..m]) == ch.trace + Recvs(b[..n + m]);
  }

  /** `after` is `before` with some of its waiting chunks read, in order, and
      nothing else done. */
  ghost predicate ReadsOnly(before: Channel, after: Channel)
  {
    && |after.buffered| <= |before.buffered|
    && after == Consume(before, |before.buffered| - |after.buffered|)
  }

  lemma ReadsNothing(ch: Channel)
    ensures ReadsOnly(ch, ch)
  {
    assert ch.buffered[..0] == [];
    assert ch.trace + Recvs([]) == ch.trace;
    assert ch.buffered[0..] == ch.buffered;
  }

  lemma ReadsOnlyTransitive(a: Channel, b: Channel, c: Channel)
    requires ReadsOnly(a, b) && ReadsOnly(b, c)
    ensures ReadsOnly(a, c)
  {
    ConsumeTwice(a, |a.buffered| - |b.buffered|, |b.buffered| - |c.buffered|);
  }

  /** Reading sends nothing. */
  lemma ReadsOnlySendsNothing(before: Channel, after: Channel)
    requires ReadsOnly(before, after)
    ensures SentData(after.trace) == SentData(before.trace)
  {
    ReceivedRecvs(before.trace, before.buffered[..|before.buffered| - |after.buffered|]);
  }

  /** Sends `data` (`_send`). On a broken socket the send raises and the
      channel is unchanged; otherwise the record is logged and the guest
      agent's answer is queued behind whatever was already buffered. */
  function SendRecord(env: Env, ch: Channel, data: string): (r: Result<Channel, AgentError>)
    ensures ch.sendFails <==> r == Failure(SocketError(data))
    ensures r.Success? ==> r.value.buffered == ch.buffered + env.respond(data)
    ensures r.Success? ==> SentData(r.value.trace) == SentData(ch.trace) + [data]
    ensures r.Success? ==> Received(r.value.trace) == Received(ch.trace)
  {
    if ch.sendFails then Failure(SocketError(data))
    else
      var t := ch.trace + [Send(data)];
      assert t[..|t| - 1] == ch.trace;
      Success(ch.(buffered := ch.buffered + env.respond(data), trace := t))
  }

  /** Takes the exclusive lock (the caller has checked that it is free). */
  function Lock(ch: Channel): Channel
  {
    ch.(locked := true, trace := ch.trace + [Acquire])
  }

  /** Releases the exclusive lock. */
  function Unlock(ch: Channel): Channel
  {
    ch.(locked := false, trace := ch.trace + [Release])
  }

  /** Closes the socket (`_close_sock`). */
  function CloseSock(ch: Channel): Channel
  {
    ch.(trace := ch.trace + [Close])
  }
}

=== FILE: wrappers.dfy ===
/** Helper datatypes shared by the whole model. */
module Wrappers {

  /** An optional value: `None` or `Some(value)`. */
  datatype Option<+T> = None | Some(value: T) {

    /** The wrapped value, or `default` when there is none. */
    function GetOr(default: T): T {
      match this
      case Some(v) => v
      case None => default
    }
  }

  /** The outcome of an operation that may raise: a value or an error. */
  datatype Result<+T, +E> = Success(value: T) | Failure(error: E)
}
